=== FILE: README.md ===
# liveSense e-mail spool, modelled in Dafny

The liveSense e-mail service does not talk to SMTP when application code
sends a mail. Instead it stores the composed MIME message as a node in a
spool folder of the JCR repository (`/var/spool/queue/mail/` by default).
Delivery happens in the background, driven by two triggers:

- the repository observer (`EmailResourceChangeListener`), which turns a
  write of a spooled message's `jcr:data` into a send job and the removal
  of a spooled message into a remove job;
- the job processor (`EmailSendJobEventHandler`), which runs those jobs:
  - it makes one SMTP attempt per send job;
  - it classifies the outcome: delivered, no recipient header, empty
    recipient headers, transient failure or corrupt entry;
  - depending on the outcome it removes the entry or writes `retryCount` and
    `nextTry` onto it, with exponential back-off;
  - a periodic sweep re-raises send jobs for entries whose `nextTry` has
    passed.

The mail service (`EmailServiceImpl`) has two more jobs:

- at activation it reads its settings, creates the spool folder and
  schedules an older periodic send job (`EmailSendJob`);
- `sendEmail` renders the message parts through FreeMarker and stores the
  message in the spool. FreeMarker finds its templates through
  `EmailTemplateLoader`.

`StreamDataSource` is a read-only data source for attachments.

## How the model is laid out

| module | models |
|---|---|
| `Common` | `Option`, `Result`, bytes, concatenation of read chunks |
| `JavaStrings` | `String.split` (trailing empty strings dropped), joining, `String.hashCode` with 32-bit wrap-around |
| `Spool` | The spool as a map from repository path to entry, job events, and the shared constants |
| `Retry` | `updateFailedMailJob`: the retry counter and the next-attempt time |
| `Delivery` | `sendMail`, `deleteMail`, `process`, `handleEvent` and the sweep `run` of the job processor |
| `HandlerSetup` | The job processor's `activate` |
| `ChangeListener` | The observer's event parsing, job generation and `activate` |
| `Folders` | Creating a folder path node by node, as both activations do |
| `ServiceImpl` | The mail service: settings, spool folder, scheduling, `createMultipart`, `sendEmail` |
| `LegacySendJob` | `EmailSendJob.execute` |
| `StreamData` | `StreamDataSource` |
| `TemplateLoader` | `EmailTemplateLoader` and its `TemplateSource` |
| `Pipeline` | Properties that hold across components |

Foreign behaviour comes in as parameters. One delivery attempt is an
`Attempt` value. It records four things:

- whether reading and parsing the stored message threw, and what;
- the recipient headers of the parsed message (absent, or the addresses they hold);
- whether the SMTP send threw, and what;
- whether the repository refused the removal.

Other foreign behaviour is passed in the same way:

- the clock is a `now` argument;
- `Math.random()` is a `jitter` bounded by the configured additional delay;
- `Math.exp` is a `growth` function;
- FreeMarker rendering, address parsing, `Message.writeTo` and the MIME-type
  lookup are function arguments.

Three behaviours of the code worth noting:

- A send job for a path that no longer exists makes `process` return
  `false`: it finds no resource, and the job fails rather than being
  dropped silently (`Delivery.Process`).
- A stored message that cannot be parsed raises a `MessagingException`, which
  the code treats as transient and retries (`Delivery.Classify`).
- The sweep query hard-codes `email:email`; it does not use the configured
  node type (see `Pipeline.SweptJobNeedsDefaultType`).

## Model

| member | source | states |
|---|---|---|
| Retry.UpdateFailedMailJob | src/main/java/org/liveSense/service/email/EmailSendJobEventHandler.java:285-321 | A first failure sets retryCount 1 and puts nextTry in the window now + initial delay + [min(0, d), max(0, d)], where d is the additional delay. A later failure removes the entry exactly when retryCount >= maximumRetry and the repository accepts the removal; a refused removal is swallowed and leaves the entry unchanged. Otherwise it increments the counter and backs off by growth(new count) * initial delay. The message itself is never touched. |
| Retry.UpdateKeepsBounds | src/main/java/org/liveSense/service/email/EmailSendJobEventHandler.java:300-307 | The retry counter never leaves [1, max(1, maximumRetry)]. |
| Retry.UpdateKeepsRetryDataConsistent | src/main/java/org/liveSense/service/email/EmailSendJobEventHandler.java:289-316 | An updated entry never has nextTry without retryCount. It has a retryCount whenever it had one before or its retries were not exhausted. |
| Retry.FailuresCounted | src/main/java/org/liveSense/service/email/EmailSendJobEventHandler.java:289-316 | A never-failed mail that fails n times, n within the budget, is still spooled with retryCount n and the same content. |
| Retry.ExhaustedRetriesRemove | src/main/java/org/liveSense/service/email/EmailSendJobEventHandler.java:301-305 | With maximumRetry >= 1, failure number maximumRetry + 1 removes the mail exactly when the repository accepts the removal. A refused removal leaves the mail as it was after maximumRetry failures. |
| Delivery.AllRecipients | src/main/java/org/liveSense/service/email/EmailSendJobEventHandler.java:359-365 | getAllRecipients() is null exactly when no test address is set and the message has no recipient header. A test address replaces only TO and comes first: the addresses are then exactly the test address and those of the present CC and BCC headers. Without one, they are exactly those of the present TO, CC and BCC headers. |
| Delivery.Classify | src/main/java/org/liveSense/service/email/EmailSendJobEventHandler.java:343-403 | Each verdict holds exactly under its condition. Delivered: content present, parsed, some recipient (after the test-address substitution), sent. Unaddressable: parsed, and getAllRecipients() is null because no recipient header exists. Aborted: recipient headers exist but hold no address, so indexing the empty array throws. Corrupt: missing content, or a PathNotFoundException. |
| Delivery.TestAddressPreventsUnaddressable | src/main/java/org/liveSense/service/email/EmailSendJobEventHandler.java:359-365 | A non-empty test address replaces TO, so no mail is ever unaddressable or aborted. |
| Delivery.EmptyRecipientsStayUnsent | src/main/java/org/liveSense/service/email/EmailSendJobEventHandler.java:364-382 | Without a test address, a message whose recipient headers hold no address makes the send job fail with the spool unchanged. A message with no recipient header is removed, unless the removal is refused. |
| Delivery.UpdateFailed | src/main/java/org/liveSense/service/email/EmailSendJobEventHandler.java:285-321 | Only the entry at the path changes, and a missing node is left alone. An exhausted entry is removed exactly when the repository accepts the removal; otherwise the spool is unchanged. An entry within budget gets a new counter and keeps its content. |
| Delivery.SendMail | src/main/java/org/liveSense/service/email/EmailSendJobEventHandler.java:324-412 | Throws exactly for a missing resource or for recipient headers without addresses. Delivered, unaddressable and corrupt mails are removed unless the removal fails; then they stay unchanged. A transient failure removes an exhausted mail exactly when the removal is accepted, and otherwise leaves it unchanged. Within budget, it changes the counter but not the content. Nothing else in the spool changes. |
| Delivery.SentButNotRemovedIsNotRetried | src/main/java/org/liveSense/service/email/EmailSendJobEventHandler.java:368-373 | A sent mail whose removal fails stays exactly as it was, without retry metadata. |
| Delivery.DeleteMail | src/main/java/org/liveSense/service/email/EmailSendJobEventHandler.java:414-446 | A missing node is success without change. A present node is removed, or the repository error is rethrown. Nothing else changes. |
| Delivery.DeleteMailIdempotent | src/main/java/org/liveSense/service/email/EmailSendJobEventHandler.java:428-437 | Deleting a second time changes nothing and succeeds. |
| Delivery.Process | src/main/java/org/liveSense/service/email/EmailSendJobEventHandler.java:228-283 | Dispatches by topic. A remove job succeeds exactly when deleteMail does. A send job succeeds exactly when the node exists, its primary type equals the job's node type and sendMail does not throw; it then saves sendMail's spool. Any other topic is true. A false result leaves the spool unchanged. |
| Delivery.HandleEvent | src/main/java/org/liveSense/service/email/EmailSendJobEventHandler.java:222-226 | Only local events are processed. |
| Delivery.HandlerSpoolFolder | src/main/java/org/liveSense/service/email/EmailSendJobEventHandler.java:206-207 | Exactly one leading "/" is removed, and only if present. |
| Delivery.SweepRows | src/main/java/org/liveSense/service/email/EmailSendJobEventHandler.java:539-559 | Only rows before the first one whose path cannot be read are considered. Each raised job is a send job for a due row that did not fail, stamped with the configured node type. Every considered due row that does not fail raises its job. |
| Delivery.ReadableRows | src/main/java/org/liveSense/service/email/EmailSendJobEventHandler.java:542-544 | The rows reached are the longest prefix whose paths can be read; the row after it, if any, is the unreadable one. |
| Delivery.UnreadableRowEndsSweep | src/main/java/org/liveSense/service/email/EmailSendJobEventHandler.java:542-559 | An unreadable row ends the sweep: among distinct rows, none at or after it raises a job. |
| Delivery.Run | src/main/java/org/liveSense/service/email/EmailSendJobEventHandler.java:532-566 | A failing query raises nothing. Otherwise, over the rows before the first unreadable one, every due row that does not fail raises its send job, stamped with the configured node type. Every job raised is such a job. |
| Delivery.SweepJobsDistinct | src/main/java/org/liveSense/service/email/EmailSendJobEventHandler.java:542-554 | Distinct rows raise distinct jobs: one job per due entry per sweep. |
| Delivery.NeverFailedNeverSwept | src/main/java/org/liveSense/service/email/EmailSendJobEventHandler.java:289-296 | In a spool whose retry properties are consistent, an entry without retryCount has no nextTry either, so it never matches the sweep query (line 539). |
| Delivery.ProcessKeepsSpoolConsistent | src/main/java/org/liveSense/service/email/EmailSendJobEventHandler.java:228-321 | Any job keeps every entry's retry properties consistent: process only removes entries or updates them with both properties. |
| Delivery.RetriedEntryBecomesDue | src/main/java/org/liveSense/service/email/EmailSendJobEventHandler.java:539 | An `email:email` entry in the swept folder that has just failed matches every sweep after its back-off window. |
| Delivery.TransientRunIsRetryBookkeeping | src/main/java/org/liveSense/service/email/EmailSendJobEventHandler.java:384-399 | A run of transient send failures leaves the entry exactly as the retry bookkeeping applied once per failure would. |
| Delivery.TransientFailuresExhaustRetries | src/main/java/org/liveSense/service/email/EmailSendJobEventHandler.java:384-387 | Through sendMail, n transient failures leave retryCount n. Failure number maximumRetry + 1 removes the mail exactly when that removal is accepted; a refused removal leaves retryCount at maximumRetry. |
| HandlerSetup.Configure | src/main/java/org/liveSense/service/email/EmailSendJobEventHandler.java:187-203 | An absent property takes its default (the test address defaults to "test@example.com"). A present one is used verbatim: strings even when empty, and the delays and retry limit even when zero or negative. |
| HandlerSetup.ConfigureRoundTrip | src/main/java/org/liveSense/service/email/EmailSendJobEventHandler.java:187-203 | Every configuration is reachable. Setting every value as a property gives it back, and so does setting only the values that differ from the defaults. |
| HandlerSetup.DefaultRedirectsToTestAddress | src/main/java/org/liveSense/service/email/EmailSendJobEventHandler.java:146-147 | Under the default settings the test address replaces TO, and the CC and BCC recipients still get the mail. No mail is ever unaddressable or aborted. |
| HandlerSetup.CreateSpoolFolder | src/main/java/org/liveSense/service/email/EmailSendJobEventHandler.java:205-219 | Activation fails exactly when the split folder has an empty name. Otherwise every prefix of the folder path exists afterwards and old nodes are kept. Each new node has the default type and is a prefix of the folder path. |
| HandlerSetup.DefaultFolderAgrees | src/main/java/org/liveSense/service/email/EmailSendJobEventHandler.java:206-217 | Under the default folder the processor walks var/spool/queue/mail, the same names the mail service creates. |
| HandlerSetup.FolderNamesCanonical | src/main/java/org/liveSense/service/email/EmailSendJobEventHandler.java:206-209 | A folder written "/a/…/z/" names exactly the nodes a … z. |
| HandlerSetup.EmptySettingRejected | src/main/java/org/liveSense/service/email/EmailSendJobEventHandler.java:209-213 | An empty setting or a doubled "/" yields an empty name, which the processor does not skip but the mail service does. |
| Folders.EnsurePath | src/main/java/org/liveSense/service/email/EmailServiceImpl.java:348-359 | Every prefix of the path exists afterwards. Existing nodes are unchanged. New nodes are prefixes of the path with the given type. Pending changes exist exactly when some prefix was missing. |
| ChangeListener.ParseNodeEvent | src/main/java/org/liveSense/service/email/EmailResourceChangeListener.java:149-159 | Fails exactly when the split path has fewer than 4 pieces. Otherwise it targets the path without its last element, named by the second-last element. |
| ChangeListener.ParsePropertyEvent | src/main/java/org/liveSense/service/email/EmailResourceChangeListener.java:167-178 | Fails exactly when the split path has fewer than 5 pieces. Otherwise it targets the path without its last two elements and reports the last element as the property name. |
| ChangeListener.GenerateJobEvent | src/main/java/org/liveSense/service/email/EmailResourceChangeListener.java:115-131 | A send job with path, node type and property name is raised exactly for names not starting with ".". |
| ChangeListener.RemoveJobEvent | src/main/java/org/liveSense/service/email/EmailResourceChangeListener.java:133-142 | A remove job with only the path is raised exactly for names not starting with ".". |
| ChangeListener.OnOneEvent | src/main/java/org/liveSense/service/email/EmailResourceChangeListener.java:147-185 | An event yields at most one job, on an absolute path. Remove jobs come only from node removals. |
| ChangeListener.OnEvent | src/main/java/org/liveSense/service/email/EmailResourceChangeListener.java:144-187 | A batch yields at most one job per event. Every job is the job of one of its events, and every event that yields a job contributes it, whatever the other events do. |
| ChangeListener.OnEventSplits | src/main/java/org/liveSense/service/email/EmailResourceChangeListener.java:145-186 | Faults are isolated per event: a batch's jobs are its parts' jobs, in order. |
| ChangeListener.NodeEventTargetsParent | src/main/java/org/liveSense/service/email/EmailResourceChangeListener.java:150-158 | A node event on /s1/…/sk (k >= 3) targets /s1/…/s(k-1), named s(k-1). |
| ChangeListener.PropertyEventTargetsGrandparent | src/main/java/org/liveSense/service/email/EmailResourceChangeListener.java:167-178 | A property event on /s1/…/sk (k >= 4) targets /s1/…/s(k-2), named s(k-2), with property sk. |
| ChangeListener.ShortPathsEmitNothing | src/main/java/org/liveSense/service/email/EmailResourceChangeListener.java:149-185 | Paths too short to parse raise nothing: the exception is caught. |
| ChangeListener.PayloadWritesRaiseSendJob | src/main/java/org/liveSense/service/email/EmailResourceChangeListener.java:166-181 | Any property event on `<entry>/<content>/jcr:data` raises a send job for the entry, unless the entry is hidden. |
| ChangeListener.RetryWritesRaiseNothing | src/main/java/org/liveSense/service/email/EmailResourceChangeListener.java:178-181 | Writing retryCount or nextTry on an entry raises no job. |
| ChangeListener.ContentRemovalRaisesRemoveJob | src/main/java/org/liveSense/service/email/EmailResourceChangeListener.java:161-164 | Removing `<entry>/<content>` raises a remove job for the entry, unless the entry is hidden. |
| ChangeListener.NormaliseContentPath | src/main/java/org/liveSense/service/email/EmailResourceChangeListener.java:202-204 | The result starts with "/" (or is empty). A trailing "/" of the "/"-prefixed input is removed, and an input without one is kept. |
| ChangeListener.NormaliseCanonical | src/main/java/org/liveSense/service/email/EmailResourceChangeListener.java:202-204 | A canonical absolute path is kept, and one trailing "/" is dropped. |
| ChangeListener.ListenerActivate | src/main/java/org/liveSense/service/email/EmailResourceChangeListener.java:198-210 | Absent settings default to content path /var/spool/queue/mail, node type email:email and property name jcr:content. A present path is normalised, and a present node type or property name is used verbatim. |
| ChangeListener.ListenerWatchesGivenPath | src/main/java/org/liveSense/service/email/EmailResourceChangeListener.java:200-204 | A content path set to a canonical absolute path, with or without a trailing "/", is watched as that path. |
| ServiceImpl.StringSetting | src/main/java/org/liveSense/service/email/EmailServiceImpl.java:257-260 | An absent or empty string setting takes the default. Any other is used verbatim. |
| ServiceImpl.LongSetting | src/main/java/org/liveSense/service/email/EmailServiceImpl.java:266-269 | An absent or zero Long setting takes the default. Any other is used verbatim. |
| ServiceImpl.BoolSetting | src/main/java/org/liveSense/service/email/EmailServiceImpl.java:284-287 | Only an absent Boolean setting takes the default. |
| ServiceImpl.ConfigureNeverEmpty | src/main/java/org/liveSense/service/email/EmailServiceImpl.java:254-327 | Host and spool folder are never empty. Port, timeout and refresh period are never zero. Non-empty or non-zero settings are taken as given. |
| ServiceImpl.StripSpoolFolder | src/main/java/org/liveSense/service/email/EmailServiceImpl.java:345-346 | One leading "/" goes. Then a trailing "/" is removed when present, and the string is kept otherwise. |
| ServiceImpl.NonEmptyNames | src/main/java/org/liveSense/service/email/EmailServiceImpl.java:350-358 | Keeps exactly the non-empty names. A list without empty names is unchanged. |
| ServiceImpl.NonEmptyNamesAppend | src/main/java/org/liveSense/service/email/EmailServiceImpl.java:350-358 | Dropping empty names distributes over concatenation, so the kept names stay in their order. |
| ServiceImpl.NonEmptyNamesSingle | src/main/java/org/liveSense/service/email/EmailServiceImpl.java:351-352 | A single name is kept exactly when it is not empty. |
| ServiceImpl.FolderNames | src/main/java/org/liveSense/service/email/EmailServiceImpl.java:345-358 | The names walked are non-empty and slash-free. |
| ServiceImpl.FolderNamesCanonical | src/main/java/org/liveSense/service/email/EmailServiceImpl.java:345-348 | "/a/…/z/" and "a/…/z" strip to "a/…/z" and name exactly a … z. |
| ServiceImpl.DefaultFolderNames | src/main/java/org/liveSense/service/email/EmailServiceImpl.java:184 | The default folder strips to var/spool/queue/mail and names those four nodes. |
| ServiceImpl.CreateSpoolFolder | src/main/java/org/liveSense/service/email/EmailServiceImpl.java:343-363 | Every prefix of the folder exists afterwards. New nodes are `nt:unstructured` mail folders on the path. Old nodes are kept. The session is saved exactly when something was created. |
| ServiceImpl.SchedulerCalls | src/main/java/org/liveSense/service/email/EmailServiceImpl.java:366-377 | The job is always (re)added with the new period and folder. It is removed first exactly when the period changed. |
| ServiceImpl.Activate | src/main/java/org/liveSense/service/email/EmailServiceImpl.java:254-378 | Activation keeps the stripped folder and the new period. It creates the folder path, adds no node off that path, keeps old nodes, saves exactly when the tree changed, and reschedules as above. |
| ServiceImpl.ReadStream | src/main/java/org/liveSense/service/email/EmailServiceImpl.java:443-454 | Reading until -1 collects every byte of the stream, in order. |
| ServiceImpl.GetInputStream | src/main/java/org/liveSense/service/email/EmailServiceImpl.java:460-462 | Every opening gives back the stored bytes. |
| ServiceImpl.GetOutputStream | src/main/java/org/liveSense/service/email/EmailServiceImpl.java:468-470 | Writing always throws. |
| ServiceImpl.PartBodyPrecedence | src/main/java/org/liveSense/service/email/EmailServiceImpl.java:480-500 | A template beats text, and text beats data. Only rendering can fail. Stream and string data become a named data source with the part's type, and a stream keeps all its bytes. Other data leaves the part empty. |
| ServiceImpl.CreateMultipart | src/main/java/org/liveSense/service/email/EmailServiceImpl.java:473-505 | Succeeds exactly when every part does, with one body part per part in order. Otherwise it fails with the error of the first failing part. |
| ServiceImpl.SetRecipientsLoop | src/main/java/org/liveSense/service/email/EmailServiceImpl.java:544-552 | As written, the loop throws exactly when some entry does not parse. Otherwise the header afterwards holds the last entry's addresses only. |
| ServiceImpl.RecipientHeader | src/main/java/org/liveSense/service/email/EmailServiceImpl.java:544-552 | As intended, the header exists exactly when every entry parses, and then holds exactly the addresses of every entry. |
| ServiceImpl.HeadersAgreeOnSingleEntry | src/main/java/org/liveSense/service/email/EmailServiceImpl.java:544-546 | With at most one entry, the as-written and intended headers agree. |
| ServiceImpl.LastRecipientWins | src/main/java/org/liveSense/service/email/EmailServiceImpl.java:544-546 | With two TO entries the message as written loses the first. |
| ServiceImpl.SendEmail | src/main/java/org/liveSense/service/email/EmailServiceImpl.java:508-595 | An unparsable recipient entry throws AddressException. A template error is swallowed and spools nothing. An I/O error propagates. Otherwise exactly one new `nt:file` entry is added at /folder/uuid: type plain/text, stamped now, no retry data. Nothing else changes. |
| ServiceImpl.SendEmailKeepsSpoolConsistent | src/main/java/org/liveSense/service/email/EmailServiceImpl.java:560-590 | A mail the service spools has neither retry property, so the spool's retry properties stay consistent. |
| ServiceImpl.SpooledMessageContents | src/main/java/org/liveSense/service/email/EmailServiceImpl.java:541-590 | The stored bytes serialise a message with the request's sender, subject and body parts. Its TO, CC and BCC headers hold only the addresses of each list's last entry, and are empty for an empty list. |
| LegacySendJob.OutcomeMatchesProcessor | src/main/java/org/liveSense/service/email/EmailSendJob.java:67-87 | The legacy job judges each child as the processor does without a test address. Sent means delivered. A crash means a null or an empty recipient array (unaddressable or aborted). A skip means transient or corrupt. |
| LegacySendJob.RunChildren | src/main/java/org/liveSense/service/email/EmailSendJob.java:64-88 | The walk crashes exactly when some child lacks recipients (unless crashes are skipped). Only sent children are reported, and removals pending are exactly the sent ones whose removal worked. Without a crash, every sendable child is sent. |
| LegacySendJob.ExecuteAsWritten | src/main/java/org/liveSense/service/email/EmailSendJob.java:59-97 | As written, a child without recipients aborts the run before the save: the spool is unchanged, even for children already sent. |
| LegacySendJob.ExecuteFixed | src/main/java/org/liveSense/service/email/EmailSendJob.java:59-97 | Fixed, the run always completes, and the saved spool loses exactly the sent children whose removal worked. |
| LegacySendJob.FixedAgreesWithoutCrash | src/main/java/org/liveSense/service/email/EmailSendJob.java:64-91 | When no child lacks recipients, the fix changes nothing. |
| LegacySendJob.SkipCrashIrrelevant | src/main/java/org/liveSense/service/email/EmailSendJob.java:65-88 | When no child lacks recipients, the walk does not depend on how a crash would be handled. |
| LegacySendJob.PoisonMessage | src/main/java/org/liveSense/service/email/EmailSendJob.java:69-71 | A sendable mail followed by one without recipients is sent but stays spooled (and is sent again next run); fixed, it is removed. |
| StreamData.AccumulateAsWritten | src/main/java/org/liveSense/service/email/StreamDataSource.java:46-56 | As written, the copy succeeds exactly when some read comes back short of the buffer. |
| StreamData.AccumulateKeepsPrefix | src/main/java/org/liveSense/service/email/StreamDataSource.java:49-55 | As written, the copy keeps the full reads up to and including the first short one, and loses the rest. |
| StreamData.ReadFully | src/main/java/org/liveSense/service/email/StreamDataSource.java:46-56 | Reading until -1, as intended, keeps every byte in order. |
| StreamData.EmptyStreamThrows | src/main/java/org/liveSense/service/email/StreamDataSource.java:49-55 | An empty stream makes the constructor throw. |
| StreamData.ExactMultipleThrows | src/main/java/org/liveSense/service/email/StreamDataSource.java:50-55 | A stream of full buffers throws, though it has buffer size × reads bytes. |
| StreamData.ShortReadTruncates | src/main/java/org/liveSense/service/email/StreamDataSource.java:50-55 | Reads [7] then [8] keep only [7]. |
| StreamData.AgreesOnFilledBuffers | src/main/java/org/liveSense/service/email/StreamDataSource.java:48-56 | When every read but the last fills the buffer and the last is short, the copy as written keeps every byte. |
| StreamData.BaseType | src/main/java/org/liveSense/service/email/StreamDataSource.java:58-66 | A given non-empty type wins. Without one, the lookup of the file name is used. Empty or missing gives application/octet-stream, and the type is never empty. |
| StreamData.ContentTypeChoice | src/main/java/org/liveSense/service/email/StreamDataSource.java:58-68 | An empty given type becomes octet-stream. With no name and no type the result is octet-stream named "null". |
| StreamData.NewStreamDataSource | src/main/java/org/liveSense/service/email/StreamDataSource.java:44-70 | Throws exactly when the copy does. Otherwise it stores the copied bytes, the type plus `; name="…"`, and the file name ("" when absent). |
| StreamData.SetContentType | src/main/java/org/liveSense/service/email/StreamDataSource.java:81-83 | Replaces the type verbatim and nothing else. |
| StreamData.GetInputStream | src/main/java/org/liveSense/service/email/StreamDataSource.java:98-100 | Gives back the stored bytes. |
| StreamData.GetOutputStream | src/main/java/org/liveSense/service/email/StreamDataSource.java:116-118 | Writing always throws. |
| StreamData.StreamRoundTrip | src/main/java/org/liveSense/service/email/StreamDataSource.java:44-100 | A source built from a stream ending in a short read gives back exactly the stream's bytes. |
| TemplateLoader.NewTemplateSource | src/main/java/org/liveSense/service/email/EmailTemplateLoader.java:147-156 | Rejected exactly for a null name or a stamp below -1. Otherwise it keeps both. |
| TemplateLoader.EqualsContract | src/main/java/org/liveSense/service/email/EmailTemplateLoader.java:166-175 | Equality compares names only, and is reflexive, symmetric and transitive. Equal sources hash equally. Null and foreign objects are unequal. |
| TemplateLoader.NodeByName | src/main/java/org/liveSense/service/email/EmailTemplateLoader.java:55-75 | Gives the node exactly when the repository is available and has it. Otherwise null. |
| TemplateLoader.FindTemplateSource | src/main/java/org/liveSense/service/email/EmailTemplateLoader.java:77-92 | A null name gives null. A source (name, stamp) is found exactly when the node and a stamp >= -1 exist. A lower stamp lets the constructor's exception escape. |
| TemplateLoader.GetLastModified | src/main/java/org/liveSense/service/email/EmailTemplateLoader.java:94-114 | The node's current stamp, or -1 for a non-source, a missing node or a missing stamp. |
| TemplateLoader.GetReader | src/main/java/org/liveSense/service/email/EmailTemplateLoader.java:116-137 | Gives the template's bytes exactly when the source, node, content and data exist and the encoding is supported. An unknown encoding, when the data exists, is the UnsupportedEncodingException. Every failure is an IOException. |
| TemplateLoader.FoundSourceIsFresh | src/main/java/org/liveSense/service/email/EmailTemplateLoader.java:77-137 | A source just found reports the repository's current stamp. It can be read exactly when its data exists and the encoding is supported. |
| TemplateLoader.ChangedTemplateDetected | src/main/java/org/liveSense/service/email/EmailTemplateLoader.java:94-106 | After the template's stamp changes, the stored source no longer matches, so FreeMarker reloads it. |
| Pipeline.PayloadWriteAttemptsDelivery | src/main/java/org/liveSense/service/email/EmailResourceChangeListener.java:166-181 | Writing a visible entry's payload, when the entry has the listener's node type, makes the processor run sendMail on exactly that entry. The job succeeds with sendMail's spool, or fails with the spool unchanged. |
| Pipeline.SweptJobNeedsDefaultType | src/main/java/org/liveSense/service/email/EmailSendJobEventHandler.java:539-551 | A swept job is processed exactly when the configured node type is email:email and sendMail does not throw. |
| Pipeline.RemoveJobAfterDelivery | src/main/java/org/liveSense/service/email/EmailSendJobEventHandler.java:414-437 | The remove job raised after a delivery removed the entry succeeds without change. |
| Pipeline.ServiceEntriesBypassProcessor | src/main/java/org/liveSense/service/email/EmailServiceImpl.java:565 | A mail spooled by the service is never swept and its send job is refused. Only the legacy job delivers it. |

## Left out

- I/O, sessions and logging are not modelled. Repository sessions, login failures, resource resolvers and log output are absent; a failing session save is not modelled.
- `sendEmail`'s writer thread and pipe are not modelled. The stored bytes are `writeTo(message)`. `sendEmail` itself does not save its session; the caller does.
- Concurrency between the observer and the sweep is not modelled. Each job is processed against one spool state.
- Floating point, the clock and randomness are not modelled. `Math.exp` is a `growth` function, `System.currentTimeMillis()` is `now` and `Math.random()` is `jitter`.
- Retry.UpdateFailedMailJob: a failing `setProperty` is not modelled. The catch-all at line 317 also swallows it, possibly after retryCount was written but before nextTry; only a refused removal is modelled.
- Retry.UpdateFailedMailJob: does not model the double arithmetic and truncation to `long`. The growth factor is abstract, so its real curve and any overflow for large counts are not modelled.
- javax.mail is not modelled. Parsing, `InternetAddress` validation, subject encoding, SMTP and SMTPS transport, debug output and the `Authenticator` all enter only through `Attempt`. A parsed message is its `Envelope`: each recipient header is absent or holds a list of addresses.
- ServiceImpl.SendEmail: passes the subject and sender through. The `Q` encoding and its `UnsupportedEncodingException` are not modelled, and neither is the `AddressException` of `new InternetAddress(from)`. Malformed recipient entries are modelled.
- Delivery.AllRecipients: newsgroup recipients, which `MimeMessage.getAllRecipients` appends, are not modelled.
- Delivery.Process: `ResourceUtil.isA` is modelled as equality with the node's primary type; super types are not modelled.
- Delivery.SendMail: the branch for a resource that is not a node (lines 402-403) is not modelled. Every spool entry is a node.
- HandlerSetup.CreateSpoolFolder: assumes the repository rejects `hasNode("")`. Other repository errors are not modelled.
- ServiceImpl.SendEmail: uuid collisions are not modelled. The model fails when the path exists. What `addNode` does then depends on the repository: it may add a same-name sibling or throw.
- ServiceImpl.SendEmail: a missing spool folder (the `getNode` call throws) is not modelled. The folder is assumed to exist.
- Sling's job retry after `process` returns false is not modelled.
- The JCR observation registration (event masks, node-type filters) is not modelled. It enters only as the shape of the paths.
- The listener's and the processor's `deactivate`, and the session the legacy job leaks on a crash, are not modelled.
- The remaining settings are not modelled:
  - system properties;
  - `smtpDebug`;
  - STARTTLS;
  - the template refresh period's effect on FreeMarker's cache.
- FreeMarker is not modelled. Template lookup and rendering are the `render` argument; `EmailTemplateLoader.closeTemplateSource` does nothing.
- `NodeAttachmentMimePart` and `extractTextFromHtml` are not part of this model. Neither are the `EmailService` interface and its other overloads; the interface's signatures differ from the implementation's.
- LegacySendJob.RunChildren: does not state which children were sent before a crash, only that the sent ones were sendable.
- TemplateLoader.GetReader: returns the bytes the reader decodes; the character decoding and a null encoding name are not modelled.
- The ISO-8859-1 decode and re-encode in `StreamDataSource` is the identity on bytes and is not modelled.

## Notes across components

The mail service stores each message as an `nt:file` without retry
properties. The job processor's send jobs expect `email:email`, and its
sweep selects only `email:email` entries. So only the legacy periodic job
delivers those messages (`Pipeline.ServiceEntriesBypassProcessor`).

The processor's activation rejects an empty folder name that the service's
activation skips (`HandlerSetup.EmptySettingRejected`).

## Findings

| source | as written | input that shows it | evidently intended | confidence | as-written member | corrected member |
|---|---|---|---|---|---|---|
| src/main/java/org/liveSense/service/email/EmailServiceImpl.java:544-552 | Each loop iteration calls `setRecipients`, which replaces the header. Only the last TO (CC, BCC) entry's addresses survive. | to = ["a@example.org", "b@example.org"]: the message goes to b only (`ServiceImpl.LastRecipientWins`) | Every entry's addresses are recipients | not executed; high | ServiceImpl.SetRecipientsLoop | ServiceImpl.RecipientHeader |
| src/main/java/org/liveSense/service/email/StreamDataSource.java:48-55 | When the last read returns -1, `substring(0, -1)` throws | An empty stream, or exactly 100000 bytes read as one full buffer (`StreamData.EmptyStreamThrows`, `StreamData.ExactMultipleThrows`) | Read until -1 and keep every byte | not executed; high | StreamData.AccumulateAsWritten | StreamData.ReadFully |
| src/main/java/org/liveSense/service/email/StreamDataSource.java:50-55 | The loop stops at the first read shorter than the buffer, even when the stream has more | Reads [7] then [8]: only [7] is kept (`StreamData.ShortReadTruncates`) | Read until -1 and keep every byte | not executed; medium | StreamData.AccumulateKeepsPrefix | StreamData.ReadFully |
| src/main/java/org/liveSense/service/email/EmailSendJob.java:69-71 | `getAllRecipients()[0]` on a message without recipients throws a runtime exception that no catch handles. `execute` ends before the save at lines 89-92, so the children already sent stay spooled and are sent again on every run. | A sendable mail followed by one without recipients (`LegacySendJob.PoisonMessage`) | Skip the child like the other failures and save the removals | not executed; high | LegacySendJob.ExecuteAsWritten | LegacySendJob.ExecuteFixed |

=== FILE: change_listener.dfy ===
/**
  The repository observer of the mail spool (`EmailResourceChangeListener`):
  it turns observation events under the spool folder into send and remove
  jobs naming a spool entry.

  The observer is registered for property events below `nt:resource` nodes
  and for node removals below nodes of the configured type; JCR applies that
  node-type filter to the PARENT of the changed item. An entry's payload
  property therefore arrives as `<entry>/jcr:content/jcr:data`, and the
  removal of an entry's content child as `<entry>/jcr:content`, which is why
  the parser drops two and one trailing segments respectively.
 */
module ChangeListener {
  import opened Common
  import opened Spool
  import opened JavaStrings

  /** The JCR 2.0 observation event types. */
  datatype EventType =
    | NodeAdded | NodeRemoved | PropertyAdded | PropertyRemoved | PropertyChanged | NodeMoved | Persist

  datatype ObservationEvent = ObservationEvent(kind: EventType, path: string)

  datatype ListenerConfig = ListenerConfig(contentPath: string, nodeType: string, propertyName: string)

  /** The entry an event points at, and that entry's own name. */
  datatype Target = Target(resourcePath: string, fileName: string)

  predicate IsNodeEvent(k: EventType)
  {
    k == NodeAdded || k == NodeRemoved
  }

  /** Node events: drop the last path element. The source builds the parent
      path from elements 1 .. n-3, takes `substring(1)` of it (which throws on
      an empty buffer when n < 4) and appends element n-2. */
  function ParseNodeEvent(path: string): (r: Option<Target>)
    ensures r.None? <==> |JavaSplit(path, '/')| < 4
    ensures r.Some? ==>
      var pe := JavaSplit(path, '/');
      r.value.fileName == pe[|pe| - 2] && r.value.resourcePath == "/" + Join(pe[1..|pe| - 1], '/')
  {
    var pe := JavaSplit(path, '/');
    var n := |pe|;
    if n < 4 then None
    else
      var filePath := Join(pe[1..n - 2], '/');
      var fileName := pe[n - 2];
      assert pe[1..n - 1] == pe[1..n - 2] + [fileName];
      JoinSnoc(pe[1..n - 2], fileName, '/');
      Some(Target("/" + filePath + "/" + fileName, fileName))
  }

  /** Property events: drop the property name and the content node; the
      property name is the last element. Fewer than 5 elements throw. */
  function ParsePropertyEvent(path: string): (r: Option<(Target, string)>)
    ensures r.None? <==> |JavaSplit(path, '/')| < 5
    ensures r.Some? ==>
      var pe := JavaSplit(path, '/');
      && r.value.0.fileName == pe[|pe| - 3]
      && r.value.0.resourcePath == "/" + Join(pe[1..|pe| - 2], '/')
      && r.value.1 == pe[|pe| - 1]
  {
    var pe := JavaSplit(path, '/');
    var n := |pe|;
    if n < 5 then None
    else
      var filePath := Join(pe[1..n - 3], '/');
      var fileName := pe[n - 3];
      assert pe[1..n - 2] == pe[1..n - 3] + [fileName];
      JoinSnoc(pe[1..n - 3], fileName, '/');
      Some((Target("/" + filePath + "/" + fileName, fileName), pe[n - 1]))
  }

  predicate Hidden(fileName: string)
  {
    StartsWith(fileName, ".")
  }

  /** `generateJobEvent`: a send job for a visible entry. */
  function GenerateJobEvent(cfg: ListenerConfig, t: Target): (r: Option<Job>)
    ensures r.Some? <==> !Hidden(t.fileName)
    ensures r.Some? ==> r.value == Job(EMAIL_SEND_TOPIC, Some(t.resourcePath), Some(cfg.nodeType), Some(cfg.propertyName))
  {
    if Hidden(t.fileName) then None
    else Some(Job(EMAIL_SEND_TOPIC, Some(t.resourcePath), Some(cfg.nodeType), Some(cfg.propertyName)))
  }

  /** `removeJobEvent`: a remove job, carrying only the path, for a visible entry. */
  function RemoveJobEvent(t: Target): (r: Option<Job>)
    ensures r.Some? <==> !Hidden(t.fileName)
    ensures r.Some? ==> r.value == Job(EMAIL_REMOVE_TOPIC, Some(t.resourcePath), None, None)
  {
    if Hidden(t.fileName) then None else Some(Job(EMAIL_REMOVE_TOPIC, Some(t.resourcePath), None, None))
  }

  /** The job one event yields; a parse failure is caught and yields none. */
  function OnOneEvent(cfg: ListenerConfig, ev: ObservationEvent): (r: Option<Job>)
    ensures r.Some? ==> r.value.topic == EMAIL_SEND_TOPIC || r.value.topic == EMAIL_REMOVE_TOPIC
    ensures r.Some? && r.value.topic == EMAIL_REMOVE_TOPIC ==> ev.kind == NodeRemoved
    ensures r.Some? ==> r.value.resourcePath.Some? && StartsWith(r.value.resourcePath.value, "/")
  {
    if IsNodeEvent(ev.kind) then
      match ParseNodeEvent(ev.path)
      case None => None
      case Some(t) => if ev.kind == NodeAdded then GenerateJobEvent(cfg, t) else RemoveJobEvent(t)
    else
      match ParsePropertyEvent(ev.path)
      case None => None
      case Some((t, propertyName)) => if propertyName == "jcr:data" then GenerateJobEvent(cfg, t) else None
  }

  function JobsOf(r: Option<Job>): seq<Job>
  {
    match r
    case None => []
    case Some(j) => [j]
  }

  /** `onEvent`: the jobs a batch of events yields, in event order. */
  function OnEvent(cfg: ListenerConfig, events: seq<ObservationEvent>): (jobs: seq<Job>)
    ensures |jobs| <= |events|
    ensures forall j :: j in jobs ==> exists i :: 0 <= i < |events| && OnOneEvent(cfg, events[i]) == Some(j)
    ensures forall i :: 0 <= i < |events| && OnOneEvent(cfg, events[i]).Some? ==> OnOneEvent(cfg, events[i]).value in jobs
  {
    if |events| == 0 then []
    else
      var rest := OnEvent(cfg, events[1..]);
      assert forall j :: j in rest ==> exists i :: 0 <= i < |events| && OnOneEvent(cfg, events[i]) == Some(j) by {
        forall j | j in rest ensures exists i :: 0 <= i < |events| && OnOneEvent(cfg, events[i]) == Some(j) {
          var i :| 0 <= i < |events[1..]| && OnOneEvent(cfg, events[1..][i]) == Some(j);
          assert events[1..][i] == events[i + 1];
        }
      }
      assert forall i :: 1 <= i < |events| ==> events[1..][i - 1] == events[i];
      JobsOf(OnOneEvent(cfg, events[0])) + rest
  }

  /** Faults are isolated per event: a batch's jobs are the jobs of its parts. */
  lemma {:induction false} OnEventSplits(cfg: ListenerConfig, a: seq<ObservationEvent>, b: seq<ObservationEvent>)
    ensures OnEvent(cfg, a + b) == OnEvent(cfg, a) + OnEvent(cfg, b)
    decreases |a|
  {
    if |a| > 0 {
      assert (a + b)[0] == a[0];
      assert (a + b)[1..] == a[1..] + b;
      OnEventSplits(cfg, a[1..], b);
    } else {
      assert a + b == b;
    }
  }

  /** A path "/s1/…/sk" of non-empty, slash-free segments. */
  predicate WellFormed(segs: seq<string>)
  {
    forall i :: 0 <= i < |segs| ==> segs[i] != "" && '/' !in segs[i]
  }

  function AbsPath(segs: seq<string>): string
  {
    "/" + Join(segs, '/')
  }

  /** A node event on "/s1/…/sk", k >= 3, targets "/s1/…/s(k-1)" named s(k-1). */
  lemma NodeEventTargetsParent(segs: seq<string>)
    requires WellFormed(segs) && |segs| >= 3
    ensures ParseNodeEvent(AbsPath(segs)) == Some(Target(AbsPath(segs[..|segs| - 1]), segs[|segs| - 2]))
  {
    JavaSplitAbsolute(segs, '/');
    var pe := [""] + segs;
    assert pe[1..|pe| - 1] == segs[..|segs| - 1];
  }

  /** A property event on "/s1/…/sk", k >= 4, targets "/s1/…/s(k-2)" named
      s(k-2), with property name sk. */
  lemma PropertyEventTargetsGrandparent(segs: seq<string>)
    requires WellFormed(segs) && |segs| >= 4
    ensures ParsePropertyEvent(AbsPath(segs))
         == Some((Target(AbsPath(segs[..|segs| - 2]), segs[|segs| - 3]), segs[|segs| - 1]))
  {
    JavaSplitAbsolute(segs, '/');
    var pe := [""] + segs;
    assert pe[1..|pe| - 2] == segs[..|segs| - 2];
  }

  /** Too short to parse: nothing is emitted for a node event on fewer than
      three segments or a property event on fewer than four. */
  lemma ShortPathsEmitNothing(cfg: ListenerConfig, kind: EventType, segs: seq<string>)
    requires WellFormed(segs) && 1 <= |segs|
    requires if IsNodeEvent(kind) then |segs| < 3 else |segs| < 4
    ensures OnOneEvent(cfg, ObservationEvent(kind, AbsPath(segs))) == None
  {
    JavaSplitAbsolute(segs, '/');
  }

  /** Any property event kind on an entry's `jcr:data` raises a send job for
      the entry, unless the entry's name is hidden. */
  lemma PayloadWritesRaiseSendJob(cfg: ListenerConfig, kind: EventType, entry: seq<string>, content: string)
    requires kind == PropertyAdded || kind == PropertyChanged || kind == PropertyRemoved
    requires WellFormed(entry) && |entry| >= 2
    requires content != "" && '/' !in content
    ensures var segs := entry + [content, "jcr:data"];
      OnOneEvent(cfg, ObservationEvent(kind, AbsPath(segs)))
      == (if Hidden(entry[|entry| - 1]) then None
          else Some(Job(EMAIL_SEND_TOPIC, Some(AbsPath(entry)), Some(cfg.nodeType), Some(cfg.propertyName))))
  {
    var segs := entry + [content, "jcr:data"];
    assert WellFormed(segs) by {
      forall i | 0 <= i < |segs| ensures segs[i] != "" && '/' !in segs[i] {
        if i < |entry| { assert segs[i] == entry[i]; }
      }
    }
    PropertyEventTargetsGrandparent(segs);
    assert segs[..|segs| - 2] == entry;
  }

  /** Writing the retry properties on an entry never raises a job. */
  lemma RetryWritesRaiseNothing(cfg: ListenerConfig, kind: EventType, entry: seq<string>, property: string)
    requires !IsNodeEvent(kind)
    requires WellFormed(entry) && |entry| >= 3
    requires property == "retryCount" || property == "nextTry"
    ensures OnOneEvent(cfg, ObservationEvent(kind, AbsPath(entry + [property]))) == None
  {
    var segs := entry + [property];
    assert WellFormed(segs) by {
      forall i | 0 <= i < |segs| ensures segs[i] != "" && '/' !in segs[i] {
        if i < |entry| { assert segs[i] == entry[i]; }
      }
    }
    PropertyEventTargetsGrandparent(segs);
  }

  /** Removing an entry's content child raises a remove job naming the entry,
      unless its name is hidden. */
  lemma ContentRemovalRaisesRemoveJob(cfg: ListenerConfig, entry: seq<string>, content: string)
    requires WellFormed(entry) && |entry| >= 2
    requires content != "" && '/' !in content
    ensures OnOneEvent(cfg, ObservationEvent(NodeRemoved, AbsPath(entry + [content])))
      == (if Hidden(entry[|entry| - 1]) then None
          else Some(Job(EMAIL_REMOVE_TOPIC, Some(AbsPath(entry)), None, None)))
  {
    var segs := entry + [content];
    assert WellFormed(segs) by {
      forall i | 0 <= i < |segs| ensures segs[i] != "" && '/' !in segs[i] {
        if i < |entry| { assert segs[i] == entry[i]; }
      }
    }
    NodeEventTargetsParent(segs);
    assert segs[..|segs| - 1] == entry;
  }

  // ---------------------------------------------------------------------
  // Activation
  // ---------------------------------------------------------------------

  /** `PropertiesUtil.toString`: the configured value, or the default when unset. */
  function ConfigString(v: Option<string>, default: string): string
  {
    v.GetOr(default)
  }

  /** `activate`: prepend "/" when missing, then drop one trailing "/". */
  function NormaliseContentPath(p: string): (r: string)
    ensures var t := if StartsWith(p, "/") then p else "/" + p;
      && (EndsWith(t, "/") ==> r + "/" == t)
      && (!EndsWith(t, "/") ==> r == t)
    ensures r == "" || StartsWith(r, "/")
    ensures |r| <= |p| + 1
  {
    var t := if StartsWith(p, "/") then p else "/" + p;
    if EndsWith(t, "/") then t[..|t| - 1] else t
  }

  /** A canonical absolute path is left as it is, and one trailing slash is dropped. */
  lemma NormaliseCanonical(segs: seq<string>)
    requires WellFormed(segs) && |segs| >= 1
    ensures NormaliseContentPath(AbsPath(segs)) == AbsPath(segs)
    ensures NormaliseContentPath(AbsPath(segs) + "/") == AbsPath(segs)
  {
    var p := AbsPath(segs);
    var last := segs[|segs| - 1];
    if |segs| == 1 {
      assert p == "/" + last;
    } else {
      JoinSnoc(segs[..|segs| - 1], last, '/');
      assert segs[..|segs| - 1] + [last] == segs;
    }
    assert p[|p| - 1] == last[|last| - 1];
    assert StartsWith(p + "/", "/") by { assert (p + "/")[..1] == p[..1]; }
    assert (p + "/")[..|p + "/"| - 1] == p;
  }

  /** A content path given as a canonical absolute path, with or without a
      trailing "/", is the path the listener watches. */
  lemma ListenerWatchesGivenPath(segs: seq<string>, nodeType: Option<string>, propertyName: Option<string>)
    requires WellFormed(segs) && |segs| >= 1
    ensures ListenerActivate(Some(AbsPath(segs)), nodeType, propertyName).contentPath == AbsPath(segs)
    ensures ListenerActivate(Some(AbsPath(segs) + "/"), nodeType, propertyName).contentPath == AbsPath(segs)
  {
    NormaliseCanonical(segs);
  }

  function ListenerActivate(spoolPath: Option<string>, nodeType: Option<string>, propertyName: Option<string>)
    : (cfg: ListenerConfig)
    ensures spoolPath.None? ==> cfg.contentPath == "/var/spool/queue/mail"
    ensures nodeType.None? ==> cfg.nodeType == NODE_TYPE_EMAIL
    ensures propertyName.None? ==> cfg.propertyName == PROPERTY_NAME
    ensures spoolPath.Some? ==> cfg.contentPath == NormaliseContentPath(spoolPath.value)
    ensures nodeType.Some? ==> cfg.nodeType == nodeType.value
    ensures propertyName.Some? ==> cfg.propertyName == propertyName.value
  {
    var p := NormaliseContentPath(ConfigString(spoolPath, DEFAULT_SPOOL_FOLDER));
    assert DEFAULT_SPOOL_FOLDER[..1] == "/";
    ListenerConfig(p, ConfigString(nodeType, NODE_TYPE_EMAIL), ConfigString(propertyName, PROPERTY_NAME))
  }
}

=== FILE: common.dfy ===
/**
  Small shared vocabulary: optional values for Java references that may be
  null, results for calls that may throw, and bytes.
 */
module Common {

  /** A Java reference that may be null. */
  datatype Option<+T> = None | Some(value: T) {
    function GetOr(default: T): T {
      match this
      case Some(v) => v
      case None => default
    }
  }

  /** The outcome of a Java call that either returns a value or throws. */
  datatype Result<+R, +E> = Success(value: R) | Failure(error: E)

  /** A Java `byte`, seen as the unsigned octet it carries on the wire. */
  newtype byte = x: int | 0 <= x < 256

  /** Concatenation of a sequence of byte chunks, in order. */
  function Flatten(chunks: seq<seq<byte>>): (r: seq<byte>)
  {
    if |chunks| == 0 then [] else Flatten(chunks[..|chunks| - 1]) + chunks[|chunks| - 1]
  }

  lemma {:induction false} FlattenAppend(chunks: seq<seq<byte>>, c: seq<byte>)
    ensures Flatten(chunks + [c]) == Flatten(chunks) + c
  {
    assert (chunks + [c])[..|chunks|] == chunks;
  }

  lemma {:induction false} FlattenCons(c: seq<byte>, chunks: seq<seq<byte>>)
    ensures Flatten([c] + chunks) == c + Flatten(chunks)
    decreases |chunks|
  {
    if |chunks| == 0 {
      assert [c] + chunks == [c];
      assert Flatten([c]) == Flatten([]) + c;
    } else {
      var init := chunks[..|chunks| - 1];
      var last := chunks[|chunks| - 1];
      assert chunks == init + [last];
      assert [c] + chunks == ([c] + init) + [last];
      FlattenAppend([c] + init, last);
      FlattenCons(c, init);
      FlattenAppend(init, last);
    }
  }

  /** Total length of a sequence of chunks. */
  lemma {:induction false} FlattenLength(chunks: seq<seq<byte>>, bound: nat)
    requires forall i :: 0 <= i < |chunks| ==> |chunks[i]| == bound
    ensures |Flatten(chunks)| == |chunks| * bound
    decreases |chunks|
  {
    if |chunks| > 0 {
      FlattenLength(chunks[..|chunks| - 1], bound);
    }
  }
}

=== FILE: delivery.dfy ===
/**
  The job processor of the mail spool (`EmailSendJobEventHandler`): it takes
  send and remove jobs, attempts the SMTP delivery of a spooled mail and
  classifies the outcome (remove the entry, or write retry metadata), and
  periodically sweeps the spool for entries whose retry time has passed.

  The javax.mail side of an attempt (reading and parsing the stored message,
  the recipient lists, the SMTP transport) is not modelled; its observable
  result on one attempt is an `Attempt` value.
 */
module Delivery {
  import opened Common
  import opened Spool
  import opened Retry
  import JavaStrings

  /** What a repository or javax.mail call did: returned normally, or threw
      the named exception. */
  datatype SendOutcome = Ok | MessagingError | PathNotFound | RepositoryError

  /** The recipient headers of a parsed message: None when the header is
      absent, otherwise the addresses it holds (possibly none). */
  datatype Envelope = Envelope(to: Option<seq<string>>, cc: Option<seq<string>>, bcc: Option<seq<string>>)

  /** The foreign side of one delivery attempt:
      `load` — reading `jcr:data` and parsing it as a MIME message;
      `envelope` — the parsed message's recipients (used when `load` is Ok);
      `transport` — the SMTP send;
      `removeFails` — whether the repository refuses to remove the node. */
  datatype Attempt = Attempt(
    load: SendOutcome,
    envelope: Envelope,
    transport: SendOutcome,
    removeFails: bool)

  datatype HandlerConfig = HandlerConfig(
    nodeType: string,
    spoolFolder: string,
    testMailAddress: string,
    retry: RetryPolicy)

  const DEFAULT_TEST_MAIL_ADDRESS: string := "test@example.com"

  /** The exceptions that escape `sendMail`/`deleteMail`: a missing resource,
      a rethrown repository error, and the unchecked exception of indexing an
      empty recipient array. */
  datatype HandlerError = MissingResource | RepositoryFailure | IndexOutOfBounds

  /** `getAllRecipients()` after a non-empty test address replaced the TO
      header (CC and BCC are kept): null when no recipient header is present, otherwise the
      addresses of the present headers, TO first, then CC, then BCC. */
  function AllRecipients(env: Envelope, testMailAddress: string): (r: Option<seq<string>>)
    ensures r.None? <==> testMailAddress == "" && env.to.None? && env.cc.None? && env.bcc.None?
    ensures r.Some? && testMailAddress != "" ==> |r.value| >= 1 && r.value[0] == testMailAddress
    ensures r.Some? && testMailAddress != "" ==>
      forall x :: x in r.value <==>
        x == testMailAddress || (env.cc.Some? && x in env.cc.value) || (env.bcc.Some? && x in env.bcc.value)
    ensures r.Some? && testMailAddress == "" ==>
      forall x :: x in r.value <==>
        (env.to.Some? && x in env.to.value) || (env.cc.Some? && x in env.cc.value) || (env.bcc.Some? && x in env.bcc.value)
  {
    var to := if testMailAddress != "" then Some([testMailAddress]) else env.to;
    if to.None? && env.cc.None? && env.bcc.None? then None
    else Some(to.GetOr([]) + env.cc.GetOr([]) + env.bcc.GetOr([]))
  }

  /** Some recipient is there to transport to. */
  predicate Addressed(env: Envelope, testMailAddress: string)
  {
    AllRecipients(env, testMailAddress).Some? && AllRecipients(env, testMailAddress).value != []
  }

  /** How an attempt ended, in the order the source's try/catch decides it. */
  datatype Verdict =
    | Delivered      // transported; remove the entry
    | Unaddressable  // no recipient header (null); remove without sending
    | Aborted        // recipient headers without addresses (empty array); indexing it throws
    | Transient      // MessagingException or another RepositoryException; retry later
    | Corrupt        // PathNotFoundException; remove, never retry

  function OutcomeVerdict(o: SendOutcome): Verdict
    requires o != Ok
  {
    match o
    case PathNotFound => Corrupt
    case MessagingError => Transient
    case RepositoryError => Transient
  }

  function Classify(e: Entry, a: Attempt, testMailAddress: string): (v: Verdict)
    ensures e.content.None? ==> v == Corrupt
    ensures v == Delivered <==>
      (e.content.Some? && a.load == Ok && Addressed(a.envelope, testMailAddress) && a.transport == Ok)
    ensures v == Unaddressable <==>
      (e.content.Some? && a.load == Ok && AllRecipients(a.envelope, testMailAddress).None?)
    ensures v == Aborted <==>
      (e.content.Some? && a.load == Ok && AllRecipients(a.envelope, testMailAddress) == Some([]))
    ensures v == Corrupt <==>
      (|| e.content.None? || a.load == PathNotFound
       || (a.load == Ok && Addressed(a.envelope, testMailAddress) && a.transport == PathNotFound))
  {
    if e.content.None? then Corrupt
    else if a.load != Ok then OutcomeVerdict(a.load)
    else if AllRecipients(a.envelope, testMailAddress).None? then Unaddressable
    else if AllRecipients(a.envelope, testMailAddress).value == [] then Aborted
    else if a.transport != Ok then OutcomeVerdict(a.transport)
    else Delivered
  }

  /** While a test address is configured it replaces TO, so every message
      has a recipient: it is neither unaddressable nor aborted. */
  lemma TestAddressPreventsUnaddressable(e: Entry, a: Attempt, testMailAddress: string)
    requires testMailAddress != ""
    ensures Classify(e, a, testMailAddress) != Unaddressable
    ensures Classify(e, a, testMailAddress) != Aborted
  {
  }

  /** The retry bookkeeping of `updateFailedMailJob` applied to the entry at `path`;
      a missing node (null) is left alone, and so is an exhausted entry whose
      removal the repository refuses. */
  function UpdateFailed(cfg: HandlerConfig, spool: Spool, path: string, now: int, jitter: int, removeFails: bool): (s': Spool)
    requires JitterOk(cfg.retry, jitter)
    ensures SameExcept(spool, s', path)
    ensures path !in spool ==> s' == spool
    ensures path in spool ==> (path !in s' <==> Exhausted(cfg.retry, spool[path]) && !removeFails)
    ensures path in spool && Exhausted(cfg.retry, spool[path]) && removeFails ==> s' == spool
    ensures path in spool && !Exhausted(cfg.retry, spool[path]) ==>
      && s'[path].content == spool[path].content
      && s'[path].retryCount.Some? && s'[path].retryCount != spool[path].retryCount
    ensures path in s' ==> s'[path] == UpdateFailedMailJob(cfg.retry, spool[path], now, jitter, removeFails).value
  {
    if path !in spool then spool
    else match UpdateFailedMailJob(cfg.retry, spool[path], now, jitter, removeFails)
      case None => Remove(spool, path)
      case Some(e') => spool[path := e']
  }

  /** `sendMail`: one delivery attempt of the entry at `path`. Success means
      the method returned true; a missing resource, and recipient headers
      without addresses, make it throw. */
  function SendMail(cfg: HandlerConfig, spool: Spool, path: string, a: Attempt, now: int, jitter: int)
    : (r: Result<Spool, HandlerError>)
    requires JitterOk(cfg.retry, jitter)
    ensures r.Failure? <==> path !in spool || Classify(spool[path], a, cfg.testMailAddress) == Aborted
    ensures r.Failure? ==> (r.error == MissingResource <==> path !in spool)
    ensures r.Success? ==> SameExcept(spool, r.value, path)
    ensures r.Success? && Classify(spool[path], a, cfg.testMailAddress) != Transient ==>
      && (path in r.value <==> a.removeFails)
      && (path in r.value ==> r.value[path] == spool[path])
    ensures r.Success? && Classify(spool[path], a, cfg.testMailAddress) == Transient ==>
      && (path !in r.value <==> Exhausted(cfg.retry, spool[path]) && !a.removeFails)
      && (Exhausted(cfg.retry, spool[path]) && a.removeFails ==> r.value == spool)
      && (!Exhausted(cfg.retry, spool[path]) ==>
            && path in r.value
            && r.value[path].retryCount != spool[path].retryCount
            && r.value[path].content == spool[path].content)
  {
    if path !in spool then Failure(MissingResource)
    else
      match Classify(spool[path], a, cfg.testMailAddress)
      case Aborted => Failure(IndexOutOfBounds)
      case Transient => Success(UpdateFailed(cfg, spool, path, now, jitter, a.removeFails))
      case _ => Success(if a.removeFails then spool else Remove(spool, path))
  }

  /** Recipient headers that hold no address make `sendMail` throw past all
      its handlers, so the job fails and the entry stays exactly as it was,
      without retry metadata; a message with no recipient header at all is
      removed instead. */
  lemma EmptyRecipientsStayUnsent(cfg: HandlerConfig, spool: Spool, path: string, a: Attempt, now: int, jitter: int)
    requires JitterOk(cfg.retry, jitter)
    requires path in spool && spool[path].content.Some? && a.load == Ok
    requires cfg.testMailAddress == ""
    ensures a.envelope == Envelope(Some([]), None, None) ==>
      Process(cfg, spool, SendJobFor(spool, path), a, now, jitter) == Processed(false, spool)
    ensures a.envelope == Envelope(None, None, None) ==>
      Process(cfg, spool, SendJobFor(spool, path), a, now, jitter).ok
      && (path !in Process(cfg, spool, SendJobFor(spool, path), a, now, jitter).spool <==> !a.removeFails)
  {
  }

  /** A successful send whose removal fails leaves the entry exactly as it
      was: no retry metadata, so this path never re-sends it by itself. */
  lemma SentButNotRemovedIsNotRetried(cfg: HandlerConfig, spool: Spool, path: string, a: Attempt, now: int, jitter: int)
    requires JitterOk(cfg.retry, jitter)
    requires path in spool
    requires Classify(spool[path], a, cfg.testMailAddress) == Delivered
    requires a.removeFails
    ensures SendMail(cfg, spool, path, a, now, jitter) == Success(spool)
  {
  }

  /** `deleteMail`: removes the node if there is one; repository errors are rethrown. */
  function DeleteMail(spool: Spool, path: string, removeFails: bool): (r: Result<Spool, HandlerError>)
    ensures path !in spool ==> r == Success(spool)
    ensures path in spool ==> (r.Failure? <==> removeFails)
    ensures r.Success? ==> path !in r.value && SameExcept(spool, r.value, path)
  {
    if path !in spool then Success(spool)
    else if removeFails then Failure(RepositoryFailure)
    else Success(Remove(spool, path))
  }

  /** Deleting twice is deleting once. */
  lemma DeleteMailIdempotent(spool: Spool, path: string, removeFails: bool, removeFails': bool)
    requires DeleteMail(spool, path, removeFails).Success?
    ensures DeleteMail(DeleteMail(spool, path, removeFails).value, path, removeFails')
         == DeleteMail(spool, path, removeFails)
  {
  }

  /** What `process` returned, and the spool after its session was saved. */
  datatype Processed = Processed(ok: bool, spool: Spool)

  /** `process`: dispatch a job by topic; every exception becomes `false`. */
  function Process(cfg: HandlerConfig, spool: Spool, job: Job, a: Attempt, now: int, jitter: int): (r: Processed)
    requires JitterOk(cfg.retry, jitter)
    ensures job.topic != EMAIL_REMOVE_TOPIC && job.topic != EMAIL_SEND_TOPIC ==> r == Processed(true, spool)
    ensures !r.ok ==> r.spool == spool
    ensures job.resourcePath.None? && job.topic in {EMAIL_REMOVE_TOPIC, EMAIL_SEND_TOPIC} ==> !r.ok
    ensures job.topic == EMAIL_REMOVE_TOPIC && job.resourcePath.Some? ==>
      r.ok == DeleteMail(spool, job.resourcePath.value, a.removeFails).Success?
      && (r.ok ==> r.spool == DeleteMail(spool, job.resourcePath.value, a.removeFails).value)
    ensures job.topic == EMAIL_SEND_TOPIC && job.resourcePath.Some? ==>
      var p := job.resourcePath.value;
      (r.ok <==> p in spool && job.nodeType == Some(spool[p].primaryType)
                 && Classify(spool[p], a, cfg.testMailAddress) != Aborted)
      && (r.ok ==> r.spool == SendMail(cfg, spool, p, a, now, jitter).value)
  {
    if job.topic == EMAIL_REMOVE_TOPIC then
      match job.resourcePath
      case None => Processed(false, spool)
      case Some(p) =>
        match DeleteMail(spool, p, a.removeFails)
        case Success(s) => Processed(true, s)
        case Failure(_) => Processed(false, spool)
    else if job.topic == EMAIL_SEND_TOPIC then
      match job.resourcePath
      case None => Processed(false, spool)
      case Some(p) =>
        if p !in spool || job.nodeType != Some(spool[p].primaryType) then Processed(false, spool)
        else
          match SendMail(cfg, spool, p, a, now, jitter)
          case Success(s) => Processed(true, s)
          case Failure(_) => Processed(false, spool)
    else Processed(true, spool)
  }

  /** A send job for the entry at `path` that expects the entry's own type. */
  function SendJobFor(spool: Spool, path: string): Job
    requires path in spool
  {
    Job(EMAIL_SEND_TOPIC, Some(path), Some(spool[path].primaryType), None)
  }

  /** `handleEvent`: only locally raised events are processed. */
  function HandleEvent(cfg: HandlerConfig, spool: Spool, job: Job, local: bool, a: Attempt, now: int, jitter: int)
    : (r: Option<Processed>)
    requires JitterOk(cfg.retry, jitter)
    ensures r.Some? <==> local
    ensures r.Some? ==> r.value.spool == Process(cfg, spool, job, a, now, jitter).spool
  {
    if local then Some(Process(cfg, spool, job, a, now, jitter)) else None
  }

  // ---------------------------------------------------------------------
  // The periodic sweep (`run`)
  // ---------------------------------------------------------------------

  /** `activate` strips one leading "/" from the configured spool folder. */
  function HandlerSpoolFolder(configured: string): (r: string)
    ensures JavaStrings.StartsWith(configured, "/") ==> "/" + r == configured
    ensures !JavaStrings.StartsWith(configured, "/") ==> r == configured
  {
    if JavaStrings.StartsWith(configured, "/") then configured[1..] else configured
  }

  /** The path step of the sweep query `/jcr:root/<folder>*`: everything in
      front of the `*` name test. */
  function SweepPrefix(cfg: HandlerConfig): string
  {
    "/" + HandlerSpoolFolder(cfg.spoolFolder)
  }

  /** A path the query's `*` name test reaches: the prefix followed by one
      slash-free name part. */
  predicate InSweepScope(prefix: string, path: string)
  {
    JavaStrings.StartsWith(path, prefix) && '/' !in path[|prefix|..]
  }

  /** The sweep query's predicate: an `email:email` entry in scope whose
      `nextTry` is strictly before `now`. */
  predicate Due(cfg: HandlerConfig, path: string, e: Entry, now: int)
  {
    && InSweepScope(SweepPrefix(cfg), path)
    && e.primaryType == NODE_TYPE_EMAIL
    && e.nextTry.Some?
    && e.nextTry.value < now
  }

  /** The send job the sweep raises for a matched row; it carries no property name. */
  function SweepJob(cfg: HandlerConfig, path: string): Job
  {
    Job(EMAIL_SEND_TOPIC, Some(path), Some(cfg.nodeType), None)
  }

  /** The rows the sweep gets to: every row up to the first one whose
      `getPath()` throws (`unreadable`), which ends the whole sweep. */
  function ReadableRows(rows: seq<string>, unreadable: set<string>): (r: seq<string>)
    ensures |r| <= |rows| && r == rows[..|r|]
    ensures forall i :: 0 <= i < |r| ==> r[i] !in unreadable
    ensures |r| < |rows| ==> rows[|r|] in unreadable
    decreases |rows|
  {
    if |rows| == 0 || rows[0] in unreadable then []
    else [rows[0]] + ReadableRows(rows[1..], unreadable)
  }

  /** The jobs raised for rows (the repository's enumeration of spool
      entries, in query order). Dispatch of a row in `failing` throws inside
      the per-row handler and is skipped; a row in `unreadable` throws before
      it, and the sweep ends there. */
  function SweepRows(cfg: HandlerConfig, spool: Spool, rows: seq<string>, now: int, failing: set<string>, unreadable: set<string>)
    : (jobs: seq<Job>)
    requires forall i :: 0 <= i < |rows| ==> rows[i] in spool
    ensures |jobs| <= |ReadableRows(rows, unreadable)|
    ensures forall j :: j in jobs ==>
      && j.resourcePath.Some?
      && j == SweepJob(cfg, j.resourcePath.value)
      && j.resourcePath.value in ReadableRows(rows, unreadable)
      && j.resourcePath.value !in failing
      && Due(cfg, j.resourcePath.value, spool[j.resourcePath.value], now)
    ensures var readable := ReadableRows(rows, unreadable);
      forall i :: 0 <= i < |readable| && readable[i] !in failing && Due(cfg, readable[i], spool[readable[i]], now) ==>
        SweepJob(cfg, readable[i]) in jobs
    decreases |rows|
  {
    if |rows| == 0 || rows[0] in unreadable then []
    else
      var rest := SweepRows(cfg, spool, rows[1..], now, failing, unreadable);
      var p := rows[0];
      assert ReadableRows(rows, unreadable) == [p] + ReadableRows(rows[1..], unreadable);
      if p !in failing && Due(cfg, p, spool[p], now) then [SweepJob(cfg, p)] + rest else rest
  }

  /** A row whose path cannot be read ends the sweep: among distinct rows,
      none at or after it raises a job. */
  lemma UnreadableRowEndsSweep(cfg: HandlerConfig, spool: Spool, rows: seq<string>, now: int,
                               failing: set<string>, unreadable: set<string>, k: nat)
    requires forall i :: 0 <= i < |rows| ==> rows[i] in spool
    requires Distinct(rows)
    requires k < |rows| && rows[k] in unreadable
    ensures forall i :: k <= i < |rows| ==> SweepJob(cfg, rows[i]) !in SweepRows(cfg, spool, rows, now, failing, unreadable)
  {
    var readable := ReadableRows(rows, unreadable);
    assert |readable| <= k;
    forall i | k <= i < |rows|
      ensures SweepJob(cfg, rows[i]) !in SweepRows(cfg, spool, rows, now, failing, unreadable)
    {
      forall m | 0 <= m < |readable| ensures readable[m] != rows[i] {
        assert readable[m] == rows[m];
      }
    }
  }

  /** `run`: the whole sweep; a failing query raises nothing. */
  function Run(cfg: HandlerConfig, spool: Spool, rows: seq<string>, now: int, failing: set<string>,
               unreadable: set<string>, queryFails: bool)
    : (jobs: seq<Job>)
    requires forall i :: 0 <= i < |rows| ==> rows[i] in spool
    ensures queryFails ==> jobs == []
    ensures forall j :: j in jobs ==> j.topic == EMAIL_SEND_TOPIC && j.nodeType == Some(cfg.nodeType)
    ensures forall j :: j in jobs ==>
      && j.resourcePath.Some?
      && j == SweepJob(cfg, j.resourcePath.value)
      && j.resourcePath.value in ReadableRows(rows, unreadable)
      && j.resourcePath.value !in failing
      && Due(cfg, j.resourcePath.value, spool[j.resourcePath.value], now)
    ensures !queryFails ==> var readable := ReadableRows(rows, unreadable);
      forall i :: 0 <= i < |readable| && readable[i] !in failing && Due(cfg, readable[i], spool[readable[i]], now) ==>
        SweepJob(cfg, readable[i]) in jobs
  {
    if queryFails then [] else SweepRows(cfg, spool, rows, now, failing, unreadable)
  }

  /** No element occurs twice. */
  ghost predicate Distinct<T>(xs: seq<T>)
  {
    forall i, j :: 0 <= i < j < |xs| ==> xs[i] != xs[j]
  }

  lemma DistinctCons<T>(x: T, xs: seq<T>)
    requires Distinct(xs) && x !in xs
    ensures Distinct([x] + xs)
  {
    var ys := [x] + xs;
    forall i, j | 0 <= i < j < |ys| ensures ys[i] != ys[j] {
      assert ys[j] == xs[j - 1];
      if i > 0 { assert ys[i] == xs[i - 1]; }
    }
  }

  lemma DistinctTail<T>(xs: seq<T>)
    requires |xs| > 0 && Distinct(xs)
    ensures Distinct(xs[1..]) && xs[0] !in xs[1..]
  {
    forall k | 0 <= k < |xs[1..]| ensures xs[1..][k] != xs[0] {
      assert xs[1..][k] == xs[k + 1];
    }
  }

  /** Each due row raises exactly one job: rows that are distinct give
      distinct jobs. */
  lemma {:induction false} SweepJobsDistinct(cfg: HandlerConfig, spool: Spool, rows: seq<string>, now: int,
                                             failing: set<string>, unreadable: set<string>)
    requires forall i :: 0 <= i < |rows| ==> rows[i] in spool
    requires Distinct(rows)
    ensures Distinct(SweepRows(cfg, spool, rows, now, failing, unreadable))
    decreases |rows|
  {
    if |rows| > 0 && rows[0] !in unreadable {
      DistinctTail(rows);
      SweepJobsDistinct(cfg, spool, rows[1..], now, failing, unreadable);
      var rest := SweepRows(cfg, spool, rows[1..], now, failing, unreadable);
      var j0 := SweepJob(cfg, rows[0]);
      assert j0.resourcePath == Some(rows[0]);
      assert rows[0] !in ReadableRows(rows[1..], unreadable);
      assert j0 !in rest;
      if SweepRows(cfg, spool, rows, now, failing, unreadable) != rest {
        DistinctCons(j0, rest);
      }
    }
  }

  /** An entry that never failed, in a spool whose retry properties are
      consistent, has no `nextTry`, so the sweep never picks it up. */
  lemma NeverFailedNeverSwept(cfg: HandlerConfig, spool: Spool, path: string, now: int)
    requires SpoolConsistent(spool)
    requires path in spool && spool[path].retryCount.None?
    ensures !Due(cfg, path, spool[path], now)
  {
    assert RetryDataConsistent(spool[path]);
  }

  /** The retry bookkeeping of one job keeps every entry's retry properties
      consistent: `process` only removes entries or updates them through
      `updateFailedMailJob`. */
  lemma ProcessKeepsSpoolConsistent(cfg: HandlerConfig, spool: Spool, job: Job, a: Attempt, now: int, jitter: int)
    requires JitterOk(cfg.retry, jitter)
    requires SpoolConsistent(spool)
    ensures SpoolConsistent(Process(cfg, spool, job, a, now, jitter).spool)
  {
    var r := Process(cfg, spool, job, a, now, jitter);
    if r.ok && job.topic == EMAIL_SEND_TOPIC {
      var path := job.resourcePath.value;
      var sm := SendMail(cfg, spool, path, a, now, jitter);
      assert sm.Success? && r.spool == sm.value;
      if Classify(spool[path], a, cfg.testMailAddress) == Transient && path in r.spool {
        UpdateKeepsRetryDataConsistent(cfg.retry, spool[path], now, jitter, a.removeFails);
      }
      forall q | q in r.spool ensures RetryDataConsistent(r.spool[q]) {
        if q != path { assert r.spool[q] == spool[q]; }
      }
    }
  }

  /** An `email:email` entry in the swept folder that just failed at time
      `now` is picked up by every sweep after its back-off window. */
  lemma RetriedEntryBecomesDue(cfg: HandlerConfig, path: string, e: Entry, now: int, jitter: int, later: int)
    requires JitterOk(cfg.retry, jitter)
    requires e.primaryType == NODE_TYPE_EMAIL
    requires InSweepScope(SweepPrefix(cfg), path)
    requires !Exhausted(cfg.retry, e)
    requires later > now + Max(0, cfg.retry.additionalRandomRetryDelay) +
      (if e.retryCount.None? then cfg.retry.initialRetryDelay
       else cfg.retry.growth(e.retryCount.value + 1) * cfg.retry.initialRetryDelay)
    ensures forall removeFails: bool :: Due(cfg, path, UpdateFailedMailJob(cfg.retry, e, now, jitter, removeFails).value, later)
  {
  }

  // ---------------------------------------------------------------------
  // Repeated attempts on one entry
  // ---------------------------------------------------------------------

  /** One delivery attempt: what the collaborators did, and when. */
  datatype Step = Step(attempt: Attempt, now: int, jitter: int)

  predicate StepsOk(cfg: HandlerConfig, steps: seq<Step>)
  {
    forall i :: 0 <= i < |steps| ==> JitterOk(cfg.retry, steps[i].jitter)
  }

  /** `sendMail` called once per step on the same path; a call that throws
      leaves the spool as it was, and the calls stop once the entry is gone. */
  function SendRepeatedly(cfg: HandlerConfig, spool: Spool, path: string, steps: seq<Step>): Spool
    requires StepsOk(cfg, steps)
    decreases |steps|
  {
    if |steps| == 0 || path !in spool then spool
    else
      match SendMail(cfg, spool, path, steps[0].attempt, steps[0].now, steps[0].jitter)
      case Success(s') => SendRepeatedly(cfg, s', path, steps[1..])
      case Failure(_) => SendRepeatedly(cfg, spool, path, steps[1..])
  }

  /** An attempt that ends in a retry whatever the entry, as long as it has content. */
  predicate TransientAttempt(a: Attempt, testMailAddress: string)
  {
    || a.load == MessagingError || a.load == RepositoryError
    || (a.load == Ok && Addressed(a.envelope, testMailAddress)
        && (a.transport == MessagingError || a.transport == RepositoryError))
  }

  function TicksOf(steps: seq<Step>): (ticks: seq<Tick>)
    ensures |ticks| == |steps|
    ensures forall i :: 0 <= i < |steps| ==>
      ticks[i] == Tick(steps[i].now, steps[i].jitter, steps[i].attempt.removeFails)
  {
    if |steps| == 0 then []
    else [Tick(steps[0].now, steps[0].jitter, steps[0].attempt.removeFails)] + TicksOf(steps[1..])
  }

  function Lookup(s: Spool, path: string): Option<Entry>
  {
    if path in s then Some(s[path]) else None
  }

  /** A run of transient failures through `sendMail` is exactly the retry
      bookkeeping applied once per failure. */
  lemma {:induction false} TransientRunIsRetryBookkeeping(cfg: HandlerConfig, spool: Spool, path: string, steps: seq<Step>)
    requires StepsOk(cfg, steps)
    requires path in spool ==> spool[path].content.Some?
    requires forall i :: 0 <= i < |steps| ==> TransientAttempt(steps[i].attempt, cfg.testMailAddress)
    ensures TicksOk(cfg.retry, TicksOf(steps))
    ensures Lookup(SendRepeatedly(cfg, spool, path, steps), path)
         == FailRepeatedly(cfg.retry, Lookup(spool, path), TicksOf(steps))
    decreases |steps|
  {
    var ticks := TicksOf(steps);
    assert TicksOk(cfg.retry, ticks);
    if |steps| > 0 && path in spool {
      var s0 := steps[0];
      var s' := SendMail(cfg, spool, path, s0.attempt, s0.now, s0.jitter).value;
      assert Classify(spool[path], s0.attempt, cfg.testMailAddress) == Transient;
      assert s' == UpdateFailed(cfg, spool, path, s0.now, s0.jitter, s0.attempt.removeFails);
      assert Lookup(s', path) == UpdateFailedMailJob(cfg.retry, spool[path], s0.now, s0.jitter, s0.attempt.removeFails);
      assert TicksOf(steps)[1..] == TicksOf(steps[1..]);
      TransientRunIsRetryBookkeeping(cfg, s', path, steps[1..]);
    }
  }

  /** The retry ladder end to end: a never-failed entry that keeps failing
      transiently carries retryCount n after n failures while n is within
      the budget; the (maximumRetry + 1)-th failure removes it, unless the
      repository refuses that removal, which leaves it at retryCount
      maximumRetry. */
  lemma TransientFailuresExhaustRetries(cfg: HandlerConfig, spool: Spool, path: string, steps: seq<Step>)
    requires StepsOk(cfg, steps)
    requires path in spool && spool[path].content.Some? && spool[path].retryCount.None?
    requires forall i :: 0 <= i < |steps| ==> TransientAttempt(steps[i].attempt, cfg.testMailAddress)
    requires 1 <= |steps| <= Max(1, cfg.retry.maximumRetry) + 1
    ensures |steps| <= Max(1, cfg.retry.maximumRetry) ==>
      path in SendRepeatedly(cfg, spool, path, steps)
      && SendRepeatedly(cfg, spool, path, steps)[path].retryCount == Some(|steps|)
    ensures cfg.retry.maximumRetry >= 1 && |steps| == cfg.retry.maximumRetry + 1 ==>
      (path !in SendRepeatedly(cfg, spool, path, steps) <==> !steps[|steps| - 1].attempt.removeFails)
    ensures cfg.retry.maximumRetry >= 1 && |steps| == cfg.retry.maximumRetry + 1 && steps[|steps| - 1].attempt.removeFails ==>
      SendRepeatedly(cfg, spool, path, steps)[path].retryCount == Some(cfg.retry.maximumRetry)
  {
    if |steps| <= Max(1, cfg.retry.maximumRetry) {
      TransientFailuresWithinBudget(cfg, spool, path, steps);
    }
    if cfg.retry.maximumRetry >= 1 && |steps| == cfg.retry.maximumRetry + 1 {
      TransientFailuresPastBudget(cfg, spool, path, steps);
    }
  }

  lemma TransientFailuresWithinBudget(cfg: HandlerConfig, spool: Spool, path: string, steps: seq<Step>)
    requires StepsOk(cfg, steps)
    requires path in spool && spool[path].content.Some? && spool[path].retryCount.None?
    requires forall i :: 0 <= i < |steps| ==> TransientAttempt(steps[i].attempt, cfg.testMailAddress)
    requires 1 <= |steps| <= Max(1, cfg.retry.maximumRetry)
    ensures path in SendRepeatedly(cfg, spool, path, steps)
    ensures SendRepeatedly(cfg, spool, path, steps)[path].retryCount == Some(|steps|)
  {
    TransientRunIsRetryBookkeeping(cfg, spool, path, steps);
    FailuresCounted(cfg.retry, spool[path], TicksOf(steps));
  }

  lemma TransientFailuresPastBudget(cfg: HandlerConfig, spool: Spool, path: string, steps: seq<Step>)
    requires StepsOk(cfg, steps)
    requires path in spool && spool[path].content.Some? && spool[path].retryCount.None?
    requires forall i :: 0 <= i < |steps| ==> TransientAttempt(steps[i].attempt, cfg.testMailAddress)
    requires cfg.retry.maximumRetry >= 1 && |steps| == cfg.retry.maximumRetry + 1
    ensures path !in SendRepeatedly(cfg, spool, path, steps) <==> !steps[|steps| - 1].attempt.removeFails
    ensures steps[|steps| - 1].attempt.removeFails ==>
      SendRepeatedly(cfg, spool, path, steps)[path].retryCount == Some(cfg.retry.maximumRetry)
  {
    TransientRunIsRetryBookkeeping(cfg, spool, path, steps);
    var ticks := TicksOf(steps);
    assert ticks[|ticks| - 1].removeRefused == steps[|steps| - 1].attempt.removeFails;
    ExhaustedRetriesRemove(cfg.retry, spool[path], ticks);
  }
}

=== FILE: folders.dfy ===
/**
  The repository's folder tree, as far as creating the spool folder at
  activation needs it: each node is identified by the list of names from the
  root, and walking down a path creates each missing node.
 */
module Folders {
  import opened Common

  type NodePath = seq<string>

  datatype FolderNode = FolderNode(primaryType: string, resourceType: Option<string>)

  /** Node path to node; the root is the empty path. */
  type Tree = map<NodePath, FolderNode>

  /** Walks from the root along `segs`, descending into each existing child
      and adding `created` for each missing one. `changed` tells whether the
      session now has pending changes. */
  method EnsurePath(tree: Tree, segs: seq<string>, created: FolderNode) returns (t: Tree, changed: bool)
    ensures forall k :: k in tree ==> k in t && t[k] == tree[k]
    ensures forall i :: 1 <= i <= |segs| ==> segs[..i] in t
    ensures forall k :: k in t && k !in tree ==> 1 <= |k| <= |segs| && k == segs[..|k|] && t[k] == created
    ensures changed <==> exists i :: 1 <= i <= |segs| && segs[..i] !in tree
  {
    t := tree;
    changed := false;
    var i := 0;
    while i < |segs|
      invariant 0 <= i <= |segs|
      invariant forall k :: k in tree ==> k in t && t[k] == tree[k]
      invariant forall j :: 1 <= j <= i ==> segs[..j] in t
      invariant forall k :: k in t && k !in tree ==> 1 <= |k| <= i && k == segs[..|k|] && t[k] == created
      invariant changed <==> exists j :: 1 <= j <= i && segs[..j] !in tree
    {
      var cur := segs[..i + 1];
      if cur !in t {
        t := t[cur := created];
        changed := true;
      }
      i := i + 1;
    }
  }
}

=== FILE: handler_setup.dfy ===
/**
  Activation of the job processor (`EmailSendJobEventHandler.activate`):
  reading its settings and creating the spool folder it sweeps.
 */
module HandlerSetup {
  import opened Common
  import opened Spool
  import opened Retry
  import opened Delivery
  import opened Folders
  import JavaStrings
  import ServiceImpl

  /** The component properties the processor's behaviour depends on; None is
      an absent property (or, for the long settings, one that does not read
      as a number). Any long, negative ones included, is accepted. */
  datatype HandlerProps = HandlerProps(
    initialRetryDelay: Option<int>,
    additionalRandomRetryDelay: Option<int>,
    maximumRetry: Option<int>,
    spoolFolder: Option<string>,
    testMailAddress: Option<string>,
    nodeType: Option<string>)

  /** `PropertiesUtil.toString`/`toLong`: an absent property takes the
      default, a present one (even empty) is used as it is. `growth` is the
      exponential back-off factor. */
  function Configure(props: HandlerProps, growth: int -> nat): (cfg: HandlerConfig)
    ensures props.nodeType.None? ==> cfg.nodeType == NODE_TYPE_EMAIL
    ensures props.spoolFolder.None? ==> cfg.spoolFolder == DEFAULT_SPOOL_FOLDER
    ensures props.testMailAddress.None? ==> cfg.testMailAddress == DEFAULT_TEST_MAIL_ADDRESS
    ensures props.maximumRetry.None? ==> cfg.retry.maximumRetry == DEFAULT_MAXIMUM_RETRY
    ensures props.initialRetryDelay.None? ==> cfg.retry.initialRetryDelay == DEFAULT_INITIAL_RETRY_DELAY
    ensures props.additionalRandomRetryDelay.None? ==>
      cfg.retry.additionalRandomRetryDelay == DEFAULT_ADDITIONAL_RANDOM_RETRY_DELAY
    ensures props.nodeType.Some? ==> cfg.nodeType == props.nodeType.value
    ensures props.spoolFolder.Some? ==> cfg.spoolFolder == props.spoolFolder.value
    ensures props.testMailAddress.Some? ==> cfg.testMailAddress == props.testMailAddress.value
    ensures props.maximumRetry.Some? ==> cfg.retry.maximumRetry == props.maximumRetry.value
    ensures props.initialRetryDelay.Some? ==> cfg.retry.initialRetryDelay == props.initialRetryDelay.value
    ensures props.additionalRandomRetryDelay.Some? ==>
      cfg.retry.additionalRandomRetryDelay == props.additionalRandomRetryDelay.value
    ensures cfg.retry.growth == growth
  {
    HandlerConfig(
      props.nodeType.GetOr(NODE_TYPE_EMAIL),
      props.spoolFolder.GetOr(DEFAULT_SPOOL_FOLDER),
      props.testMailAddress.GetOr(DEFAULT_TEST_MAIL_ADDRESS),
      RetryPolicy(
        props.initialRetryDelay.GetOr(DEFAULT_INITIAL_RETRY_DELAY),
        props.additionalRandomRetryDelay.GetOr(DEFAULT_ADDITIONAL_RANDOM_RETRY_DELAY),
        props.maximumRetry.GetOr(DEFAULT_MAXIMUM_RETRY),
        growth))
  }

  /** The properties that spell out a configuration. */
  function PropsOf(cfg: HandlerConfig): HandlerProps
  {
    HandlerProps(Some(cfg.retry.initialRetryDelay), Some(cfg.retry.additionalRandomRetryDelay),
                 Some(cfg.retry.maximumRetry), Some(cfg.spoolFolder), Some(cfg.testMailAddress), Some(cfg.nodeType))
  }

  /** Every configuration can be set: giving each of its values as a
      property yields exactly it, and so does giving only the values that
      differ from the defaults. */
  lemma ConfigureRoundTrip(cfg: HandlerConfig)
    ensures Configure(PropsOf(cfg), cfg.retry.growth) == cfg
    ensures var props := HandlerProps(
        if cfg.retry.initialRetryDelay == DEFAULT_INITIAL_RETRY_DELAY then None else Some(cfg.retry.initialRetryDelay),
        if cfg.retry.additionalRandomRetryDelay == DEFAULT_ADDITIONAL_RANDOM_RETRY_DELAY then None
        else Some(cfg.retry.additionalRandomRetryDelay),
        if cfg.retry.maximumRetry == DEFAULT_MAXIMUM_RETRY then None else Some(cfg.retry.maximumRetry),
        if cfg.spoolFolder == DEFAULT_SPOOL_FOLDER then None else Some(cfg.spoolFolder),
        if cfg.testMailAddress == DEFAULT_TEST_MAIL_ADDRESS then None else Some(cfg.testMailAddress),
        if cfg.nodeType == NODE_TYPE_EMAIL then None else Some(cfg.nodeType));
      Configure(props, cfg.retry.growth) == cfg
  {
  }

  /** Out of the box the test address replaces every spooled mail's TO
      header, while its CC and BCC recipients still get the mail: the default
      configuration can never find a mail unaddressable, nor one with empty
      recipient headers. */
  lemma DefaultRedirectsToTestAddress(growth: int -> nat, e: Entry, a: Attempt)
    ensures var cfg := Configure(HandlerProps(None, None, None, None, None, None), growth);
      && cfg.testMailAddress == "test@example.com"
      && Classify(e, a, cfg.testMailAddress) != Unaddressable
      && Classify(e, a, cfg.testMailAddress) != Aborted
      && (forall x :: x in AllRecipients(a.envelope, cfg.testMailAddress).value <==>
            x == cfg.testMailAddress
            || (a.envelope.cc.Some? && x in a.envelope.cc.value)
            || (a.envelope.bcc.Some? && x in a.envelope.bcc.value))
  {
    var cfg := Configure(HandlerProps(None, None, None, None, None, None), growth);
    TestAddressPreventsUnaddressable(e, a, cfg.testMailAddress);
  }

  /** The names `activate` walks: one leading "/" stripped, then split. */
  function FolderNames(configured: string): seq<string>
  {
    JavaStrings.JavaSplit(HandlerSpoolFolder(configured), '/')
  }

  /** Walks the names from the root, adding each missing node with the
      repository's default type `created`, and saves. An empty name (from an
      empty setting or a doubled "/") is rejected by the repository. */
  method CreateSpoolFolder(tree: Tree, configured: string, created: FolderNode) returns (r: Result<Tree, HandlerError>)
    ensures r.Failure? <==> "" in FolderNames(configured)
    ensures r.Success? ==>
      var segs := FolderNames(configured);
      && (forall i :: 1 <= i <= |segs| ==> segs[..i] in r.value)
      && (forall k :: k in tree ==> k in r.value && r.value[k] == tree[k])
      && (forall k :: k in r.value && k !in tree ==>
            r.value[k] == created && 1 <= |k| <= |segs| && k == segs[..|k|])
  {
    var segs := FolderNames(configured);
    if "" in segs {
      return Failure(RepositoryFailure);
    }
    var t, _ := EnsurePath(tree, segs, created);
    return Success(t);
  }

  /** Under the default setting the processor walks exactly the names the
      mail service creates, so the two components agree on the folder. */
  lemma DefaultFolderAgrees()
    ensures FolderNames(DEFAULT_SPOOL_FOLDER) == ServiceImpl.FolderNames(DEFAULT_SPOOL_FOLDER)
    ensures FolderNames(DEFAULT_SPOOL_FOLDER) == ["var", "spool", "queue", "mail"]
    ensures "" !in FolderNames(DEFAULT_SPOOL_FOLDER)
  {
    DefaultHandlerFolder();
    ServiceImpl.DefaultFolderNames();
  }

  lemma DefaultHandlerFolder()
    ensures FolderNames(DEFAULT_SPOOL_FOLDER) == ServiceImpl.DEFAULT_FOLDER_NAMES
  {
    ServiceImpl.DefaultFolderSpelled();
    ServiceImpl.DefaultNamesCanonical();
    FolderNamesCanonical(ServiceImpl.DEFAULT_FOLDER_NAMES);
  }

  /** A folder written as "/a/b/" names the nodes a, b. */
  lemma FolderNamesCanonical(segs: seq<string>)
    requires ServiceImpl.Canonical(segs)
    ensures FolderNames("/" + JavaStrings.Join(segs, '/') + "/") == segs
  {
    var j := JavaStrings.Join(segs, '/');
    var f := "/" + j + "/";
    assert JavaStrings.StartsWith(f, "/");
    assert f[1..] == j + "/";
    JavaStrings.JavaSplitTrailing(segs, '/');
  }

  /** A setting with an empty name in it, such as "" or "/a//b", makes
      activation fail, where the mail service skips the empty name. */
  lemma EmptySettingRejected()
    ensures "" in FolderNames("")
    ensures "" in FolderNames("/a//b")
    ensures ServiceImpl.FolderNames("/a//b") == ["a", "b"]
  {
    HandlerKeepsEmptyName();
    ServiceSkipsEmptyName();
  }

  lemma HandlerKeepsEmptyName()
    ensures "" in FolderNames("/a//b")
  {
    SplitDoubledSlash();
    assert HandlerSpoolFolder("/a//b") == "a//b";
  }

  lemma ServiceSkipsEmptyName()
    ensures ServiceImpl.FolderNames("/a//b") == ["a", "b"]
  {
    SplitDoubledSlash();
    assert ServiceImpl.StripSpoolFolder("/a//b") == "a//b";
    var parts := ["a", "", "b"];
    assert parts[1..] == ["", "b"] && parts[1..][1..] == ["b"];
    assert ServiceImpl.NonEmptyNames(parts) == ["a", "b"];
  }

  /** "a//b" splits into "a", "" and "b". */
  lemma SplitDoubledSlash()
    ensures JavaStrings.JavaSplit("a//b", '/') == ["a", "", "b"]
  {
    var parts := ["a", "", "b"];
    assert JavaStrings.Join(parts, '/') == "a//b";
    JavaStrings.JoinSplitAll(parts, '/');
    assert "a//b"[1] == '/';
  }
}

=== FILE: java_strings.dfy ===
/**
  The few `java.lang.String` operations the mail spool's path handling relies
  on, with Java's exact edge cases: `split` on a one-character separator keeps
  leading empty pieces, drops trailing ones, and returns the input itself when
  the separator does not occur; `hashCode` wraps around at 32 bits.
 */
module JavaStrings {

  /** Every piece between separators, including empty ones at both ends:
      a string with n separators has n + 1 pieces. */
  function SplitAll(s: string, sep: char): (r: seq<string>)
    ensures |r| >= 1
    ensures forall i :: 0 <= i < |r| ==> sep !in r[i]
  {
    if |s| == 0 then [""]
    else
      var rest := SplitAll(s[1..], sep);
      if s[0] == sep then [""] + rest
      else [[s[0]] + rest[0]] + rest[1..]
  }

  /** Pieces glued back together with the separator between them. */
  function Join(parts: seq<string>, sep: char): string
  {
    if |parts| == 0 then ""
    else if |parts| == 1 then parts[0]
    else parts[0] + [sep] + Join(parts[1..], sep)
  }

  /** Removes every empty piece at the end of the list. */
  function DropTrailingEmpty(parts: seq<string>): (r: seq<string>)
    ensures |r| <= |parts| && r == parts[..|r|]
    ensures |r| > 0 ==> r[|r| - 1] != ""
    ensures forall i :: |r| <= i < |parts| ==> parts[i] == ""
  {
    if |parts| > 0 && parts[|parts| - 1] == "" then DropTrailingEmpty(parts[..|parts| - 1])
    else parts
  }

  /** `s.split(String.valueOf(sep))` with Java's limit-0 semantics. */
  function JavaSplit(s: string, sep: char): (r: seq<string>)
    ensures forall i :: 0 <= i < |r| ==> sep !in r[i]
    ensures s == "" ==> r == [""]
    ensures sep !in s ==> r == [s]
    ensures sep in s ==> |r| == 0 || r[|r| - 1] != ""
  {
    if sep !in s then [s] else DropTrailingEmpty(SplitAll(s, sep))
  }

  /** One separator more than pieces, minus one: splitting then joining
      gives the original string back. */
  lemma {:induction false} SplitAllJoin(s: string, sep: char)
    ensures Join(SplitAll(s, sep), sep) == s
  {
    if |s| > 0 {
      var rest := SplitAll(s[1..], sep);
      SplitAllJoin(s[1..], sep);
      if s[0] == sep {
        assert SplitAll(s, sep) == [""] + rest;
        assert ([""] + rest)[1..] == rest;
        assert s == [sep] + s[1..];
      } else {
        var r := SplitAll(s, sep);
        assert r == [[s[0]] + rest[0]] + rest[1..];
        if |rest| == 1 {
          assert Join(r, sep) == [s[0]] + rest[0];
        } else {
          assert r[1..] == rest[1..];
          assert Join(rest, sep) == rest[0] + [sep] + Join(rest[1..], sep);
        }
        assert s == [s[0]] + s[1..];
      }
    }
  }

  /** Splitting a separator-free list of pieces that was joined gives the pieces back. */
  lemma {:induction false} JoinSplitAll(parts: seq<string>, sep: char)
    requires |parts| >= 1
    requires forall i :: 0 <= i < |parts| ==> sep !in parts[i]
    ensures SplitAll(Join(parts, sep), sep) == parts
    decreases |parts|
  {
    if |parts| == 1 {
      NoSepSplitAll(parts[0], sep);
    } else {
      JoinSplitAll(parts[1..], sep);
      SplitAllPrefix(parts[0], sep, Join(parts[1..], sep));
      assert Join(parts, sep) == parts[0] + ([sep] + Join(parts[1..], sep));
      assert [parts[0]] + parts[1..] == parts;
    }
  }

  lemma {:induction false} NoSepSplitAll(s: string, sep: char)
    requires sep !in s
    ensures SplitAll(s, sep) == [s]
  {
    if |s| > 0 {
      assert sep !in s[1..] by {
        forall i | 0 <= i < |s[1..]| ensures s[1..][i] != sep { assert s[1..][i] == s[i + 1]; }
      }
      NoSepSplitAll(s[1..], sep);
      assert s == [s[0]] + s[1..];
    }
  }

  /** A separator-free word followed by a separator becomes its own first piece. */
  lemma {:induction false} SplitAllPrefix(w: string, sep: char, t: string)
    requires sep !in w
    ensures SplitAll(w + [sep] + t, sep) == [w] + SplitAll(t, sep)
    decreases |w|
  {
    var s := w + [sep] + t;
    if |w| == 0 {
      assert s == [sep] + t;
      assert s[1..] == t;
    } else {
      assert s[1..] == w[1..] + [sep] + t;
      assert sep !in w[1..] by {
        forall i | 0 <= i < |w[1..]| ensures w[1..][i] != sep { assert w[1..][i] == w[i + 1]; }
      }
      SplitAllPrefix(w[1..], sep, t);
      var rest := SplitAll(s[1..], sep);
      assert rest == [w[1..]] + SplitAll(t, sep);
      assert s[0] == w[0] && s[0] != sep;
      assert [s[0]] + rest[0] == w;
      assert rest[1..] == SplitAll(t, sep);
    }
  }

  /** An absolute path "/s1/…/sk" with non-empty, slash-free segments splits
      into a leading empty piece followed by the segments. */
  lemma JavaSplitAbsolute(segs: seq<string>, sep: char)
    requires |segs| >= 1
    requires forall i :: 0 <= i < |segs| ==> segs[i] != "" && sep !in segs[i]
    ensures JavaSplit([sep] + Join(segs, sep), sep) == [""] + segs
  {
    var parts := [""] + segs;
    JoinLeadingEmpty(segs, sep);
    LeadingEmptySepFree(segs, sep);
    JavaSplitOfJoin(parts, sep);
  }

  /** Pieces that do not end in an empty one, joined with at least one
      separator, split back into themselves. */
  lemma JavaSplitOfJoin(parts: seq<string>, sep: char)
    requires |parts| >= 2 && parts[|parts| - 1] != ""
    requires forall i :: 0 <= i < |parts| ==> sep !in parts[i]
    ensures JavaSplit(Join(parts, sep), sep) == parts
  {
    JoinSplitAll(parts, sep);
    DropTrailingKeeps(parts);
    assert Join(parts, sep) == parts[0] + [sep] + Join(parts[1..], sep);
    assert Join(parts, sep)[|parts[0]|] == sep;
  }

  lemma JoinLeadingEmpty(segs: seq<string>, sep: char)
    requires |segs| >= 1
    ensures Join([""] + segs, sep) == [sep] + Join(segs, sep)
  {
    assert ([""] + segs)[1..] == segs;
  }

  lemma LeadingEmptySepFree(segs: seq<string>, sep: char)
    requires |segs| >= 1
    requires forall i :: 0 <= i < |segs| ==> segs[i] != "" && sep !in segs[i]
    ensures forall i :: 0 <= i < |[""] + segs| ==> sep !in ([""] + segs)[i]
    ensures ([""] + segs)[|segs|] != ""
  {
    assert ([""] + segs)[|segs|] == segs[|segs| - 1];
    forall i | 0 <= i < |[""] + segs| ensures sep !in ([""] + segs)[i] {
      if i > 0 { assert ([""] + segs)[i] == segs[i - 1]; }
    }
  }

  /** A list that does not end in an empty piece loses nothing. */
  lemma DropTrailingKeeps(parts: seq<string>)
    requires |parts| > 0 && parts[|parts| - 1] != ""
    ensures DropTrailingEmpty(parts) == parts
  {
  }

  /** A relative path "s1/…/sk/" with a trailing separator splits into the
      segments: the trailing empty piece is dropped. */
  lemma JavaSplitTrailing(segs: seq<string>, sep: char)
    requires |segs| >= 1
    requires forall i :: 0 <= i < |segs| ==> segs[i] != "" && sep !in segs[i]
    ensures JavaSplit(Join(segs, sep) + [sep], sep) == segs
  {
    var parts := segs + [""];
    JoinSnoc(segs, "", sep);
    assert Join(segs, sep) + [sep] == Join(parts, sep);
    JoinSplitAll(parts, sep);
    var s := Join(parts, sep);
    assert sep in s by { assert s[|s| - 1] == sep; }
    assert parts[..|segs|] == segs;
    assert DropTrailingEmpty(parts) == DropTrailingEmpty(segs);
  }

  /** Joining with one more piece at the end appends a separator and the piece. */
  lemma {:induction false} JoinSnoc(parts: seq<string>, x: string, sep: char)
    requires |parts| >= 1
    ensures Join(parts + [x], sep) == Join(parts, sep) + [sep] + x
    decreases |parts|
  {
    if |parts| == 1 {
      assert (parts + [x])[1..] == [x];
    } else {
      assert (parts + [x])[1..] == parts[1..] + [x];
      JoinSnoc(parts[1..], x, sep);
    }
  }

  predicate StartsWith(s: string, prefix: string)
  {
    |prefix| <= |s| && s[..|prefix|] == prefix
  }

  predicate EndsWith(s: string, suffix: string)
  {
    |suffix| <= |s| && s[|s| - |suffix|..] == suffix
  }

  /** Java `int` arithmetic: the two's-complement value of x modulo 2^32. */
  function WrapInt32(x: int): (r: int)
    ensures -0x8000_0000 <= r < 0x8000_0000
    ensures (r - x) % 0x1_0000_0000 == 0
  {
    var m := x % 0x1_0000_0000;
    if m >= 0x8000_0000 then m - 0x1_0000_0000 else m
  }

  /** `String.hashCode`: h = 31 * h + c over the UTF-16 code units, in `int`. */
  function JavaHash(s: string): (h: int)
    ensures -0x8000_0000 <= h < 0x8000_0000
  {
    if |s| == 0 then 0 else WrapInt32(31 * JavaHash(s[..|s| - 1]) + s[|s| - 1] as int)
  }
}

=== FILE: legacy_send_job.dfy ===
/**
  The periodic send job the mail service schedules (`EmailSendJob`): it
  walks every child of the spool folder, transports each stored message and
  removes the sent ones, saving the session once at the end.

  One delivery attempt's foreign side (parsing, recipients, SMTP, removal)
  is the same `Attempt` value the job processor uses; the legacy job never
  redirects to a test address.
 */
module LegacySendJob {
  import opened Common
  import opened Spool
  import opened Delivery

  /** What happened to one child: transported (and whether its removal
      succeeded), skipped after a caught exception, or the uncaught failure
      of `getAllRecipients()[0]` on a message without recipients (a null
      array, or an empty one). */
  datatype ChildOutcome = Sent(removed: bool) | Skipped | Crashed

  function ChildOutcomeOf(e: Entry, a: Attempt): ChildOutcome
  {
    if e.content.None? || a.load != Ok then Skipped
    else if !Addressed(a.envelope, "") then Crashed
    else if a.transport != Ok then Skipped
    else Sent(!a.removeFails)
  }

  /** The legacy job judges an attempt as the job processor does without a
      test address, except what it does with the verdict: a message without
      recipients crashes it, whether the processor would remove it
      (no recipient header) or fail on it (empty headers), and a corrupt one
      is left in place. */
  lemma OutcomeMatchesProcessor(e: Entry, a: Attempt)
    ensures ChildOutcomeOf(e, a).Sent? <==> Classify(e, a, "") == Delivered
    ensures ChildOutcomeOf(e, a).Crashed? <==> Classify(e, a, "") in {Unaddressable, Aborted}
    ensures ChildOutcomeOf(e, a).Skipped? <==> Classify(e, a, "") in {Transient, Corrupt}
  {
  }

  predicate AllIn(spool: Spool, children: seq<string>)
  {
    forall i :: 0 <= i < |children| ==> children[i] in spool
  }

  function Outcome(spool: Spool, attempt: string -> Attempt, c: string): ChildOutcome
    requires c in spool
  {
    ChildOutcomeOf(spool[c], attempt(c))
  }

  /** The children transported in order, those whose removal is pending,
      and whether the walk was cut short by a crash. */
  datatype Pass = Pass(sent: seq<string>, removed: set<string>, crashed: bool)

  /** The loop over the children. With `skipCrash` a message without
      recipients is skipped like any other failed one. */
  function RunChildren(spool: Spool, children: seq<string>, attempt: string -> Attempt, skipCrash: bool): (r: Pass)
    requires AllIn(spool, children)
    ensures r.crashed <==>
      !skipCrash && exists i :: 0 <= i < |children| && Outcome(spool, attempt, children[i]).Crashed?
    ensures forall c :: c in r.sent ==> c in children && Outcome(spool, attempt, c).Sent?
    ensures forall c :: c in r.removed <==> c in r.sent && Outcome(spool, attempt, c) == Sent(true)
    ensures !r.crashed ==>
      forall i :: 0 <= i < |children| && Outcome(spool, attempt, children[i]).Sent? ==> children[i] in r.sent
    decreases |children|
  {
    if |children| == 0 then Pass([], {}, false)
    else
      var c := children[0];
      var rest := RunChildren(spool, children[1..], attempt, skipCrash);
      assert forall i :: 1 <= i < |children| ==> children[1..][i - 1] == children[i];
      match Outcome(spool, attempt, c)
      case Crashed =>
        if skipCrash then rest else Pass([], {}, true)
      case Skipped => rest
      case Sent(ok) =>
        Pass([c] + rest.sent, (if ok then {c} else {}) + rest.removed, rest.crashed)
  }

  /** The result of `execute`: the messages transported, the spool as saved,
      and whether the method returned normally. */
  datatype JobRun = JobRun(sent: seq<string>, spool: Spool, completed: bool)

  function Execute(spool: Spool, children: seq<string>, attempt: string -> Attempt, folderMissing: bool, skipCrash: bool)
    : JobRun
    requires AllIn(spool, children)
  {
    if folderMissing then JobRun([], spool, true)
    else
      var p := RunChildren(spool, children, attempt, skipCrash);
      if p.crashed then JobRun(p.sent, spool, false)
      else JobRun(p.sent, map q | q in spool && q !in p.removed :: spool[q], true)
  }

  /** `execute` as written: a child without recipients aborts the run before
      the session is saved, so nothing removed in that run is removed. */
  function ExecuteAsWritten(spool: Spool, children: seq<string>, attempt: string -> Attempt, folderMissing: bool)
    : (r: JobRun)
    requires AllIn(spool, children)
    ensures folderMissing ==> r == JobRun([], spool, true)
    ensures !r.completed ==> r.spool == spool
    ensures !folderMissing ==>
      (!r.completed <==> exists i :: 0 <= i < |children| && Outcome(spool, attempt, children[i]).Crashed?)
    ensures !r.completed ==> forall c :: c in r.sent ==> c in r.spool && r.spool[c] == spool[c]
  {
    Execute(spool, children, attempt, folderMissing, false)
  }

  /** `execute` with the missing-recipient case caught like the others: the
      child is left in place and the walk continues. */
  function ExecuteFixed(spool: Spool, children: seq<string>, attempt: string -> Attempt, folderMissing: bool)
    : (r: JobRun)
    requires AllIn(spool, children)
    ensures r.completed
    ensures folderMissing ==> r == JobRun([], spool, true)
    ensures forall q :: q in r.spool ==> q in spool && r.spool[q] == spool[q]
    ensures !folderMissing ==> forall q :: q in spool ==>
      (q !in r.spool <==> q in children && Outcome(spool, attempt, q) == Sent(true))
    ensures !folderMissing ==> forall i :: 0 <= i < |children| && Outcome(spool, attempt, children[i]).Sent? ==>
      children[i] in r.sent
  {
    Execute(spool, children, attempt, folderMissing, true)
  }

  /** When no child lacks recipients the fix changes nothing. */
  lemma FixedAgreesWithoutCrash(spool: Spool, children: seq<string>, attempt: string -> Attempt, folderMissing: bool)
    requires AllIn(spool, children)
    requires forall i :: 0 <= i < |children| ==> !Outcome(spool, attempt, children[i]).Crashed?
    ensures ExecuteAsWritten(spool, children, attempt, folderMissing) == ExecuteFixed(spool, children, attempt, folderMissing)
  {
    SkipCrashIrrelevant(spool, children, attempt);
  }

  lemma {:induction false} SkipCrashIrrelevant(spool: Spool, children: seq<string>, attempt: string -> Attempt)
    requires AllIn(spool, children)
    requires forall i :: 0 <= i < |children| ==> !Outcome(spool, attempt, children[i]).Crashed?
    ensures RunChildren(spool, children, attempt, false) == RunChildren(spool, children, attempt, true)
    decreases |children|
  {
    if |children| > 0 {
      assert forall i :: 1 <= i < |children| ==> children[1..][i - 1] == children[i];
      SkipCrashIrrelevant(spool, children[1..], attempt);
    }
  }

  /** A deliverable message followed by one without recipients: the job as
      written transports the first, then aborts with the first still
      spooled, so every later run sends it again. The fixed job removes it
      and leaves the other in place. */
  lemma PoisonMessage(e: Entry, good: Attempt, bad: Attempt)
    requires e.content.Some?
    requires good.load == Ok && good.transport == Ok && !good.removeFails
    requires good.envelope.to.Some? && good.envelope.to.value != []
    requires bad.load == Ok && bad.envelope == Envelope(None, None, None)
    ensures var spool := map["/m/a" := e, "/m/b" := e];
      var attempt := (p: string) => if p == "/m/a" then good else bad;
      var children := ["/m/a", "/m/b"];
      && ExecuteAsWritten(spool, children, attempt, false) == JobRun(["/m/a"], spool, false)
      && ExecuteFixed(spool, children, attempt, false) == JobRun(["/m/a"], map["/m/b" := e], true)
  {
    var spool := map["/m/a" := e, "/m/b" := e];
    var attempt := (p: string) => if p == "/m/a" then good else bad;
    var children := ["/m/a", "/m/b"];
    assert Addressed(good.envelope, "") by {
      assert good.envelope.to.value[0] in AllRecipients(good.envelope, "").value;
    }
    assert Outcome(spool, attempt, "/m/a") == Sent(true);
    assert Outcome(spool, attempt, "/m/b") == Crashed;
    assert children[1..] == ["/m/b"];
    assert children[1..][1..] == [];
    var fixed := RunChildren(spool, children, attempt, true);
    assert fixed == Pass(["/m/a"], {"/m/a"}, false);
    assert (map q | q in spool && q !in fixed.removed :: spool[q]) == map["/m/b" := e];
  }
}

=== FILE: pipeline.dfy ===
/**
  How the components meet: the listener's jobs and the sweep's jobs as the
  job processor handles them, and the entries the mail service writes as the
  processor and the legacy job see them.
 */
module Pipeline {
  import opened Common
  import opened Spool
  import opened Retry
  import opened Delivery
  import ChangeListener
  import ServiceImpl
  import LegacySendJob

  /** A write of an entry's payload, on an entry of the listener's node type,
      makes the processor attempt delivery of exactly that entry: the job
      succeeds with the spool `sendMail` leaves, or fails with none changed. */
  lemma PayloadWriteAttemptsDelivery(
    lcfg: ChangeListener.ListenerConfig, hcfg: HandlerConfig, spool: Spool,
    kind: ChangeListener.EventType, entry: seq<string>, content: string,
    a: Attempt, now: int, jitter: int)
    requires kind == ChangeListener.PropertyAdded || kind == ChangeListener.PropertyChanged
    requires ChangeListener.WellFormed(entry) && |entry| >= 2
    requires content != "" && '/' !in content
    requires !ChangeListener.Hidden(entry[|entry| - 1])
    requires ChangeListener.AbsPath(entry) in spool
    requires spool[ChangeListener.AbsPath(entry)].primaryType == lcfg.nodeType
    requires JitterOk(hcfg.retry, jitter)
    ensures var ev := ChangeListener.ObservationEvent(kind, ChangeListener.AbsPath(entry + [content, "jcr:data"]));
      var job := ChangeListener.OnOneEvent(lcfg, ev);
      && job.Some?
      && Process(hcfg, spool, job.value, a, now, jitter)
         == (match SendMail(hcfg, spool, ChangeListener.AbsPath(entry), a, now, jitter)
             case Success(s) => Processed(true, s)
             case Failure(_) => Processed(false, spool))
  {
    ChangeListener.PayloadWritesRaiseSendJob(lcfg, kind, entry, content);
  }

  /** The sweep selects `email:email` entries but stamps its jobs with the
      configured node type: a due entry is only processed when the two
      agree (and `sendMail` does not throw on it). */
  lemma SweptJobNeedsDefaultType(cfg: HandlerConfig, spool: Spool, path: string, a: Attempt, now: int, jitter: int)
    requires JitterOk(cfg.retry, jitter)
    requires path in spool && Due(cfg, path, spool[path], now)
    ensures Process(cfg, spool, SweepJob(cfg, path), a, now, jitter).ok <==>
      cfg.nodeType == NODE_TYPE_EMAIL && Classify(spool[path], a, cfg.testMailAddress) != Aborted
  {
  }

  /** After a delivery removed the entry, the remove job the listener raises
      for it finds nothing and succeeds without changing the spool. */
  lemma RemoveJobAfterDelivery(cfg: HandlerConfig, spool: Spool, path: string, a: Attempt, a': Attempt, now: int, jitter: int)
    requires JitterOk(cfg.retry, jitter)
    requires path in spool
    requires Classify(spool[path], a, cfg.testMailAddress) == Delivered && !a.removeFails
    ensures var s := SendMail(cfg, spool, path, a, now, jitter).value;
      && path !in s
      && Process(cfg, s, Job(EMAIL_REMOVE_TOPIC, Some(path), None, None), a', now, jitter) == Processed(true, s)
  {
  }

  /** A mail the service spools is an `nt:file` without retry metadata: the
      sweep never selects it, and a send job expecting `email:email` is
      refused; only the legacy job, which walks every child, sends it. */
  lemma ServiceEntriesBypassProcessor(
    spool: Spool, folder: string, uuid: string, req: ServiceImpl.MailRequest,
    render: (string, ServiceImpl.PartData) -> ServiceImpl.Rendering, encode: string -> seq<byte>,
    parse: ServiceImpl.AddressParser, writeTo: ServiceImpl.Message -> seq<byte>, created: int,
    cfg: HandlerConfig, a: Attempt, now: int, jitter: int)
    requires ServiceImpl.CreateMultipart(req.parts, render, encode).Success?
    requires ServiceImpl.SendEmail(spool, folder, uuid, req, render, encode, parse, writeTo, created).Success?
    requires JitterOk(cfg.retry, jitter)
    ensures var s := ServiceImpl.SendEmail(spool, folder, uuid, req, render, encode, parse, writeTo, created).value;
      var p := ServiceImpl.SpoolPath(folder, uuid);
      && !Due(cfg, p, s[p], now)
      && Process(cfg, s, Job(EMAIL_SEND_TOPIC, Some(p), Some(NODE_TYPE_EMAIL), Some(PROPERTY_NAME)), a, now, jitter)
         == Processed(false, s)
      && (a.load == Ok && a.envelope.to.Some? && a.envelope.to.value != [] && a.transport == Ok && !a.removeFails ==>
            LegacySendJob.Outcome(s, (q: string) => a, p) == LegacySendJob.Sent(true))
  {
    var s := ServiceImpl.SendEmail(spool, folder, uuid, req, render, encode, parse, writeTo, created).value;
    assert ServiceImpl.FILE_NODE_TYPE != NODE_TYPE_EMAIL;
    if a.load == Ok && a.envelope.to.Some? && a.envelope.to.value != [] {
      assert a.envelope.to.value[0] in AllRecipients(a.envelope, "").value;
    }
  }
}

=== FILE: retry.dfy ===
/**
  The retry bookkeeping written onto a spooled mail after a failed attempt
  (`updateFailedMailJob` of the job processor).

  The source computes the next attempt time in floating point as
  `exp(retryCount) * initialRetryDelay + now + random() * additionalRandomRetryDelay`
  and truncates it to a long. Here `growth(k)` stands for the exponential factor
  and the random term is an explicit integer `jitter` between 0 and the
  configured additional delay (which, like the initial delay, may be
  configured negative).
 */
module Retry {
  import opened Common
  import opened Spool

  datatype RetryPolicy = RetryPolicy(
    initialRetryDelay: int,
    additionalRandomRetryDelay: int,
    maximumRetry: int,
    growth: int -> nat)

  const DEFAULT_INITIAL_RETRY_DELAY: nat := 5 * 1000 * 60
  const DEFAULT_ADDITIONAL_RANDOM_RETRY_DELAY: nat := 5 * 1000 * 60
  const DEFAULT_MAXIMUM_RETRY: int := 12

  function Max(a: int, b: int): int { if a < b then b else a }
  function Min(a: int, b: int): int { if a < b then a else b }

  /** The random part of a delay: `random()` in [0, 1) times the configured
      spread, so between 0 and the spread, whichever sign it has. */
  predicate JitterOk(p: RetryPolicy, jitter: int)
  {
    Min(0, p.additionalRandomRetryDelay) <= jitter <= Max(0, p.additionalRandomRetryDelay)
  }

  /** The time window a retry scheduled at `now` with back-off `delay` lands in. */
  predicate InWindow(p: RetryPolicy, t: int, now: int, delay: int)
  {
    now + delay + Min(0, p.additionalRandomRetryDelay) <= t <= now + delay + Max(0, p.additionalRandomRetryDelay)
  }

  /** The states a spooled mail may be in: never failed, or failed between
      1 and max(1, maximumRetry) times. */
  predicate RetryInBounds(p: RetryPolicy, e: Entry)
  {
    e.retryCount.None? || 1 <= e.retryCount.value <= Max(1, p.maximumRetry)
  }

  /** The retry budget is spent: the entry has failed `maximumRetry` times or more. */
  predicate Exhausted(p: RetryPolicy, e: Entry)
  {
    e.retryCount.Some? && e.retryCount.value >= p.maximumRetry
  }

  /** The entry after one more failed attempt at time `now`; None when the
      retry budget is spent and the node is removed instead. The removal sits
      inside the method's catch-all, so a removal the repository refuses
      (`removeRefused`) leaves the entry as it was. */
  function UpdateFailedMailJob(p: RetryPolicy, e: Entry, now: int, jitter: int, removeRefused: bool): (r: Option<Entry>)
    requires JitterOk(p, jitter)
    ensures r.None? <==> Exhausted(p, e) && !removeRefused
    ensures Exhausted(p, e) && removeRefused ==> r == Some(e)
    ensures r.Some? ==> r.value.primaryType == e.primaryType && r.value.content == e.content
    ensures !Exhausted(p, e) ==> r.Some? && r.value.retryCount.Some? && r.value.nextTry.Some?
    ensures e.retryCount.None? ==>
      && r.value.retryCount == Some(1)
      && InWindow(p, r.value.nextTry.value, now, p.initialRetryDelay)
    ensures e.retryCount.Some? && !Exhausted(p, e) ==>
      && r.value.retryCount == Some(e.retryCount.value + 1)
      && InWindow(p, r.value.nextTry.value, now, p.growth(e.retryCount.value + 1) * p.initialRetryDelay)
  {
    match e.retryCount
    case None =>
      Some(e.(retryCount := Some(1), nextTry := Some(p.initialRetryDelay + now + jitter)))
    case Some(k) =>
      if k >= p.maximumRetry then (if removeRefused then Some(e) else None)
      else
        var k' := k + 1;
        Some(e.(retryCount := Some(k'), nextTry := Some(p.growth(k') * p.initialRetryDelay + now + jitter)))
  }

  /** A failure never takes the retry counter out of [1, max(1, maximumRetry)]. */
  lemma UpdateKeepsBounds(p: RetryPolicy, e: Entry, now: int, jitter: int, removeRefused: bool)
    requires JitterOk(p, jitter)
    requires RetryInBounds(p, e)
    ensures UpdateFailedMailJob(p, e, now, jitter, removeRefused).Some? ==>
      RetryInBounds(p, UpdateFailedMailJob(p, e, now, jitter, removeRefused).value)
  {
  }

  /** A failed attempt never leaves `nextTry` without `retryCount`: both are
      written on every update, and a refused removal changes nothing. */
  lemma UpdateKeepsRetryDataConsistent(p: RetryPolicy, e: Entry, now: int, jitter: int, removeRefused: bool)
    requires JitterOk(p, jitter)
    requires RetryDataConsistent(e)
    ensures var r := UpdateFailedMailJob(p, e, now, jitter, removeRefused);
      r.Some? ==> RetryDataConsistent(r.value) && r.value.retryCount.Some? == (e.retryCount.Some? || !Exhausted(p, e))
  {
  }

  /** The time and random draw of one failed attempt, and whether the
      repository refuses to remove the node should the budget be spent. */
  datatype Tick = Tick(now: int, jitter: int, removeRefused: bool)

  predicate TicksOk(p: RetryPolicy, ticks: seq<Tick>)
  {
    forall i :: 0 <= i < |ticks| ==> JitterOk(p, ticks[i].jitter)
  }

  /** The entry after one failed attempt per tick; once removed it stays removed. */
  function FailRepeatedly(p: RetryPolicy, e: Option<Entry>, ticks: seq<Tick>): Option<Entry>
    requires TicksOk(p, ticks)
    decreases |ticks|
  {
    if |ticks| == 0 || e.None? then e
    else FailRepeatedly(p, UpdateFailedMailJob(p, e.value, ticks[0].now, ticks[0].jitter, ticks[0].removeRefused), ticks[1..])
  }

  /** A never-failed entry that fails n times, n within the budget, carries
      retryCount n and is otherwise the same mail. */
  lemma {:induction false} FailuresCounted(p: RetryPolicy, e: Entry, ticks: seq<Tick>)
    requires TicksOk(p, ticks)
    requires e.retryCount.None?
    requires 1 <= |ticks| <= Max(1, p.maximumRetry)
    ensures FailRepeatedly(p, Some(e), ticks).Some?
    ensures FailRepeatedly(p, Some(e), ticks).value.retryCount == Some(|ticks|)
    ensures FailRepeatedly(p, Some(e), ticks).value.content == e.content
    decreases |ticks|
  {
    var n := |ticks|;
    if n > 1 {
      var init := ticks[..n - 1];
      FailuresCounted(p, e, init);
      FailRepeatedlySnoc(p, Some(e), init, ticks[n - 1]);
      assert init + [ticks[n - 1]] == ticks;
    }
  }

  /** With maximumRetry >= 1, the (maximumRetry + 1)-th consecutive failure
      removes the entry when the repository accepts the removal, and leaves
      it with its last counter and time stamp when it refuses. */
  lemma ExhaustedRetriesRemove(p: RetryPolicy, e: Entry, ticks: seq<Tick>)
    requires TicksOk(p, ticks)
    requires e.retryCount.None?
    requires p.maximumRetry >= 1
    requires |ticks| == p.maximumRetry + 1
    ensures FailRepeatedly(p, Some(e), ticks).None? <==> !ticks[|ticks| - 1].removeRefused
    ensures ticks[|ticks| - 1].removeRefused ==>
      FailRepeatedly(p, Some(e), ticks) == FailRepeatedly(p, Some(e), ticks[..|ticks| - 1])
      && FailRepeatedly(p, Some(e), ticks).value.retryCount == Some(p.maximumRetry)
  {
    var n := |ticks|;
    var init := ticks[..n - 1];
    FailuresCounted(p, e, init);
    FailRepeatedlySnoc(p, Some(e), init, ticks[n - 1]);
    assert init + [ticks[n - 1]] == ticks;
  }

  /** One more tick at the end is one more failure applied to the result. */
  lemma {:induction false} FailRepeatedlySnoc(p: RetryPolicy, e: Option<Entry>, ticks: seq<Tick>, t: Tick)
    requires TicksOk(p, ticks) && JitterOk(p, t.jitter)
    ensures TicksOk(p, ticks + [t])
    ensures FailRepeatedly(p, e, ticks + [t]) ==
      (match FailRepeatedly(p, e, ticks)
       case None => None
       case Some(x) => UpdateFailedMailJob(p, x, t.now, t.jitter, t.removeRefused))
    decreases |ticks|
  {
    assert TicksOk(p, ticks + [t]) by {
      forall i | 0 <= i < |ticks + [t]| ensures JitterOk(p, (ticks + [t])[i].jitter) {
        if i < |ticks| { assert (ticks + [t])[i] == ticks[i]; }
      }
    }
    if |ticks| > 0 && e.Some? {
      var e' := UpdateFailedMailJob(p, e.value, ticks[0].now, ticks[0].jitter, ticks[0].removeRefused);
      assert (ticks + [t])[1..] == ticks[1..] + [t];
      FailRepeatedlySnoc(p, e', ticks[1..], t);
    } else if |ticks| == 0 && e.Some? {
      assert (ticks + [t])[1..] == [];
    }
  }
}

=== FILE: service_impl.dfy ===
/**
  The mail service (`EmailServiceImpl`): its activation (configuration
  defaults, creation of the spool folder, scheduling of the legacy send job)
  and `sendEmail`, which composes a MIME message from parts and stores it in
  the spool as a new `nt:file` node.

  FreeMarker rendering, the charset encoder, RFC 822 address parsing and
  `Message.writeTo` are foreign code; they enter as function parameters.
 */
module ServiceImpl {
  import opened Common
  import opened Spool
  import opened Folders
  import JavaStrings

  // ---------------------------------------------------------------------
  // Configuration (`activate`)
  // ---------------------------------------------------------------------

  const DEFAULT_SMTP_HOST: string := "localhost"
  const DEFAULT_SMTP_PORT: int := 25
  const DEFAULT_SMTP_CONNECTION_TIMEOUT: int := 10000
  const DEFAULT_SMTP_SSL_ENABLE: bool := false
  const DEFAULT_SMTP_USER_NAME: string := ""
  const DEFAULT_SMTP_PASSWORD: string := ""
  const DEFAULT_TEMPLATE_REFRESH_PERIOD: int := 60 * 10
  const DEFAULT_EMAIL_SEND_JOB_PERIOD: int := 60

  /** The component properties as they arrive; None is an absent property. */
  datatype ServiceProps = ServiceProps(
    smtpHost: Option<string>,
    smtpPort: Option<int>,
    smtpConnectionTimeout: Option<int>,
    smtpSslEnable: Option<bool>,
    smtpUserName: Option<string>,
    smtpPassword: Option<string>,
    templateRefreshPeriod: Option<int>,
    spoolFolder: Option<string>,
    emailSendJobPeriod: Option<int>)

  /** The settings after defaulting. `spoolFolder` is the configured value
      before the slashes are stripped from it. */
  datatype ServiceConfig = ServiceConfig(
    smtpHost: string,
    smtpPort: int,
    smtpConnectionTimeout: int,
    smtpSslEnable: bool,
    smtpUserName: string,
    smtpPassword: string,
    templateRefreshPeriod: int,
    spoolFolder: string,
    emailSendJobPeriod: int)

  /** A string setting: absent or empty falls back to the default. */
  function StringSetting(v: Option<string>, default: string): (r: string)
    ensures v.None? || v.value == "" ==> r == default
    ensures v.Some? && v.value != "" ==> r == v.value
  {
    if v.None? || v.value == "" then default else v.value
  }

  /** A `Long` setting: absent or zero falls back to the default. */
  function LongSetting(v: Option<int>, default: int): (r: int)
    ensures v.None? || v.value == 0 ==> r == default
    ensures v.Some? && v.value != 0 ==> r == v.value
  {
    if v.None? || v.value == 0 then default else v.value
  }

  /** A `Boolean` setting: only an absent one falls back to the default. */
  function BoolSetting(v: Option<bool>, default: bool): (r: bool)
    ensures v.None? ==> r == default
    ensures v.Some? ==> r == v.value
  {
    if v.None? then default else v.value
  }

  function Configure(props: ServiceProps): (cfg: ServiceConfig)
  {
    ServiceConfig(
      StringSetting(props.smtpHost, DEFAULT_SMTP_HOST),
      LongSetting(props.smtpPort, DEFAULT_SMTP_PORT),
      LongSetting(props.smtpConnectionTimeout, DEFAULT_SMTP_CONNECTION_TIMEOUT),
      BoolSetting(props.smtpSslEnable, DEFAULT_SMTP_SSL_ENABLE),
      StringSetting(props.smtpUserName, DEFAULT_SMTP_USER_NAME),
      StringSetting(props.smtpPassword, DEFAULT_SMTP_PASSWORD),
      LongSetting(props.templateRefreshPeriod, DEFAULT_TEMPLATE_REFRESH_PERIOD),
      StringSetting(props.spoolFolder, DEFAULT_SPOOL_FOLDER),
      LongSetting(props.emailSendJobPeriod, DEFAULT_EMAIL_SEND_JOB_PERIOD))
  }

  /** Whatever arrives, the host and spool folder are never empty and the
      port, timeout and periods are never zero; a setting given with a
      non-empty (non-zero) value is taken as it is. */
  lemma ConfigureNeverEmpty(props: ServiceProps)
    ensures var cfg := Configure(props);
      && cfg.smtpHost != "" && cfg.spoolFolder != ""
      && cfg.smtpPort != 0 && cfg.smtpConnectionTimeout != 0
      && cfg.templateRefreshPeriod != 0 && cfg.emailSendJobPeriod != 0
    ensures props.smtpHost.Some? && props.smtpHost.value != "" ==> Configure(props).smtpHost == props.smtpHost.value
    ensures props.spoolFolder.Some? && props.spoolFolder.value != "" ==> Configure(props).spoolFolder == props.spoolFolder.value
    ensures props.smtpPort.Some? && props.smtpPort.value != 0 ==> Configure(props).smtpPort == props.smtpPort.value
    ensures props.emailSendJobPeriod.Some? && props.emailSendJobPeriod.value != 0 ==>
      Configure(props).emailSendJobPeriod == props.emailSendJobPeriod.value
  {
  }

  // ---------------------------------------------------------------------
  // The spool folder
  // ---------------------------------------------------------------------

  /** The folder nodes the service creates. */
  const MAIL_FOLDER: FolderNode := FolderNode("nt:unstructured", Some("liveSense/mailFolder"))

  /** One leading and then one trailing "/" removed; the result is the path
      relative to the root that the service also uses to find the folder. */
  function StripSpoolFolder(f: string): (r: string)
    ensures var t := if JavaStrings.StartsWith(f, "/") then f[1..] else f;
      && (JavaStrings.EndsWith(t, "/") ==> r + "/" == t)
      && (!JavaStrings.EndsWith(t, "/") ==> r == t)
    ensures |r| <= |f|
  {
    var t := if JavaStrings.StartsWith(f, "/") then f[1..] else f;
    if JavaStrings.EndsWith(t, "/") then t[..|t| - 1] else t
  }

  /** The non-empty names, in order. */
  function NonEmptyNames(parts: seq<string>): (r: seq<string>)
    ensures |r| <= |parts|
    ensures forall i :: 0 <= i < |r| ==> r[i] != "" && r[i] in parts
    ensures forall x :: x in parts && x != "" ==> x in r
    ensures (forall i :: 0 <= i < |parts| ==> parts[i] != "") ==> r == parts
  {
    if |parts| == 0 then []
    else if parts[0] == "" then NonEmptyNames(parts[1..])
    else [parts[0]] + NonEmptyNames(parts[1..])
  }

  /** Dropping empty names distributes over concatenation, so the names
      kept come in the order they were given. */
  lemma {:induction false} NonEmptyNamesAppend(a: seq<string>, b: seq<string>)
    ensures NonEmptyNames(a + b) == NonEmptyNames(a) + NonEmptyNames(b)
    decreases |a|
  {
    if |a| == 0 {
      assert a + b == b;
    } else {
      assert (a + b)[1..] == a[1..] + b;
      NonEmptyNamesAppend(a[1..], b);
    }
  }

  /** One name is kept exactly when it is not empty. */
  lemma NonEmptyNamesSingle(x: string)
    ensures NonEmptyNames([x]) == (if x == "" then [] else [x])
  {
    assert [x][1..] == [];
  }

  /** The names activation walks: the stripped folder split at "/", with
      empty names skipped. */
  function FolderNames(configured: string): (segs: seq<string>)
    ensures forall i :: 0 <= i < |segs| ==> segs[i] != "" && '/' !in segs[i]
  {
    NonEmptyNames(JavaStrings.JavaSplit(StripSpoolFolder(configured), '/'))
  }

  predicate Canonical(segs: seq<string>)
  {
    |segs| >= 1 && forall i :: 0 <= i < |segs| ==> segs[i] != "" && '/' !in segs[i]
  }

  /** A folder written as "/a/b/", "/a/b", "a/b/" or "a/b" names the nodes a, b. */
  lemma FolderNamesCanonical(segs: seq<string>)
    requires Canonical(segs)
    ensures var j := JavaStrings.Join(segs, '/');
      && StripSpoolFolder("/" + j + "/") == j
      && StripSpoolFolder(j) == j
      && FolderNames("/" + j + "/") == segs
      && FolderNames(j) == segs
  {
    var j := JavaStrings.Join(segs, '/');
    JoinShape(segs);
    var f := "/" + j + "/";
    assert JavaStrings.StartsWith(f, "/");
    assert f[1..] == j + "/";
    assert JavaStrings.EndsWith(j + "/", "/");
    assert (j + "/")[..|j + "/"| - 1] == j;
    assert !JavaStrings.StartsWith(j, "/") && !JavaStrings.EndsWith(j, "/");
    var split := JavaStrings.JavaSplit(j, '/');
    if '/' in j {
      JavaStrings.JoinSplitAll(segs, '/');
      assert split == JavaStrings.DropTrailingEmpty(segs);
      assert split == segs;
    } else {
      JavaStrings.SplitAllJoin(j, '/');
      JavaStrings.NoSepSplitAll(j, '/');
      JavaStrings.JoinSplitAll(segs, '/');
      assert split == [j] == segs;
    }
  }

  /** A canonical join neither starts nor ends with the separator. */
  lemma JoinShape(segs: seq<string>)
    requires Canonical(segs)
    ensures var j := JavaStrings.Join(segs, '/'); |j| >= 1 && j[0] != '/' && j[|j| - 1] != '/'
  {
    var j := JavaStrings.Join(segs, '/');
    var last := segs[|segs| - 1];
    if |segs| > 1 {
      JavaStrings.JoinSnoc(segs[..|segs| - 1], last, '/');
      assert segs[..|segs| - 1] + [last] == segs;
      assert j[|j| - 1] == last[|last| - 1];
    }
    assert last[|last| - 1] in last;
    assert segs[0][0] in segs[0];
  }

  /** The nodes of the default spool folder, from the root down. */
  const DEFAULT_FOLDER_NAMES: seq<string> := ["var", "spool", "queue", "mail"]

  /** The default folder is the four nodes var/spool/queue/mail. */
  lemma DefaultFolderNames()
    ensures FolderNames(DEFAULT_SPOOL_FOLDER) == DEFAULT_FOLDER_NAMES
    ensures StripSpoolFolder(DEFAULT_SPOOL_FOLDER) == "var/spool/queue/mail"
  {
    DefaultFolderSpelled();
    DefaultNamesCanonical();
    FolderNamesCanonical(DEFAULT_FOLDER_NAMES);
  }

  lemma DefaultFolderJoin()
    ensures JavaStrings.Join(DEFAULT_FOLDER_NAMES, '/') == "var/spool/queue/mail"
  {
    var segs := DEFAULT_FOLDER_NAMES;
    assert segs[1..] == ["spool", "queue", "mail"];
    assert segs[1..][1..] == ["queue", "mail"];
    assert segs[1..][1..][1..] == ["mail"];
    assert JavaStrings.Join(["queue", "mail"], '/') == "queue/mail";
    assert JavaStrings.Join(["spool", "queue", "mail"], '/') == "spool/queue/mail";
  }

  lemma DefaultFolderSpelled()
    ensures JavaStrings.Join(DEFAULT_FOLDER_NAMES, '/') == "var/spool/queue/mail"
    ensures DEFAULT_SPOOL_FOLDER == "/" + JavaStrings.Join(DEFAULT_FOLDER_NAMES, '/') + "/"
  {
    DefaultFolderJoin();
  }

  lemma DefaultNamesCanonical()
    ensures Canonical(DEFAULT_FOLDER_NAMES)
  {
  }

  /** Walks the folder names from the root, creating each missing node as a
      mail folder; the session is saved only when something was created. */
  method CreateSpoolFolder(tree: Tree, configured: string) returns (t: Tree, saved: bool)
    ensures var segs := FolderNames(configured);
      forall i :: 1 <= i <= |segs| ==> segs[..i] in t
    ensures forall k :: k in tree ==> k in t && t[k] == tree[k]
    ensures forall k :: k in t && k !in tree ==>
      t[k] == MAIL_FOLDER && 1 <= |k| <= |FolderNames(configured)| && k == FolderNames(configured)[..|k|]
    ensures saved <==> t != tree
  {
    var segs := FolderNames(configured);
    t, saved := EnsurePath(tree, segs, MAIL_FOLDER);
    if saved {
      var i :| 1 <= i <= |segs| && segs[..i] !in tree;
      assert segs[..i] in t;
    } else {
      assert forall k :: k in t ==> k in tree;
      assert t.Keys == tree.Keys;
      assert t == tree;
    }
  }

  // ---------------------------------------------------------------------
  // Scheduling of the legacy send job
  // ---------------------------------------------------------------------

  datatype SchedulerCall =
    | RemoveJob
    | AddPeriodicJob(period: int, spoolFolder: string)

  /** The scheduler calls of one activation: the job is always (re)added with
      the stripped folder, and removed first when the period changed. */
  function SchedulerCalls(previousPeriod: int, period: int, folder: string): (calls: seq<SchedulerCall>)
    ensures |calls| >= 1 && calls[|calls| - 1] == AddPeriodicJob(period, folder)
    ensures RemoveJob in calls <==> previousPeriod != period
    ensures |calls| <= 2
  {
    if period != previousPeriod then [RemoveJob, AddPeriodicJob(period, folder)]
    else [AddPeriodicJob(period, folder)]
  }

  /** The component's state that survives from one activation to the next. */
  datatype ServiceState = ServiceState(emailSendJobPeriod: int, spoolFolder: string, tree: Tree)

  const INITIAL_PERIOD: int := DEFAULT_EMAIL_SEND_JOB_PERIOD

  /** `activate`: configure, create the spool folder, (re)schedule the job. */
  method Activate(st: ServiceState, props: ServiceProps)
    returns (st': ServiceState, cfg: ServiceConfig, saved: bool, calls: seq<SchedulerCall>)
    ensures cfg == Configure(props)
    ensures st'.spoolFolder == StripSpoolFolder(cfg.spoolFolder)
    ensures st'.emailSendJobPeriod == cfg.emailSendJobPeriod
    ensures var segs := FolderNames(cfg.spoolFolder);
      forall i :: 1 <= i <= |segs| ==> segs[..i] in st'.tree
    ensures forall k :: k in st.tree ==> k in st'.tree && st'.tree[k] == st.tree[k]
    ensures forall k :: k in st'.tree && k !in st.tree ==>
      st'.tree[k] == MAIL_FOLDER && 1 <= |k| <= |FolderNames(cfg.spoolFolder)| && k == FolderNames(cfg.spoolFolder)[..|k|]
    ensures saved <==> st'.tree != st.tree
    ensures |calls| >= 1 && calls[|calls| - 1] == AddPeriodicJob(cfg.emailSendJobPeriod, st'.spoolFolder)
    ensures RemoveJob in calls <==> st.emailSendJobPeriod != cfg.emailSendJobPeriod
  {
    cfg := Configure(props);
    var t;
    t, saved := CreateSpoolFolder(st.tree, cfg.spoolFolder);
    var folder := StripSpoolFolder(cfg.spoolFolder);
    calls := SchedulerCalls(st.emailSendJobPeriod, cfg.emailSendJobPeriod, folder);
    st' := ServiceState(cfg.emailSendJobPeriod, folder, t);
  }

  // ---------------------------------------------------------------------
  // Message parts (`createMultipart`)
  // ---------------------------------------------------------------------

  /** What `MimePart.getData()` returns: nothing, an input stream (its
      successive reads), a `DataHandler` (opaque), a string, or an object of
      any other class. */
  datatype PartData =
    | NoData
    | StreamData(chunks: seq<seq<byte>>)
    | HandlerData(handler: nat)
    | StringData(text: string)
    | OtherData

  datatype MimePart = MimePart(
    name: Option<string>,
    mimeType: Option<string>,
    template: Option<string>,
    text: Option<string>,
    data: PartData)

  /** `InputStreamDataSource`: a name, a content type and the bytes read. */
  datatype DataSource = DataSource(name: Option<string>, contentType: Option<string>, bytes: seq<byte>)

  datatype BodyPart =
    | RenderedPart(content: string, mimeType: Option<string>)
    | TextPart(text: string)
    | SourcePart(source: DataSource)
    | HandlerPart(handler: nat)
    | EmptyPart

  /** The template engine's answer for (template name, data model). */
  datatype Rendering = Rendered(output: string) | TemplateMissing | TemplateFailed

  /** `TemplateError` is a FreeMarker `TemplateException`; `IoError` is an
      `IOException` (such as a template that cannot be found). */
  datatype ComposeError = TemplateError | IoError

  /** The bytes an input stream delivers, read 256 bytes at a time until the
      stream reports its end. */
  method ReadStream(chunks: seq<seq<byte>>) returns (bytes: seq<byte>)
    ensures bytes == Flatten(chunks)
  {
    bytes := [];
    var i := 0;
    while i < |chunks|
      invariant 0 <= i <= |chunks|
      invariant bytes == Flatten(chunks[..i])
    {
      FlattenAppend(chunks[..i], chunks[i]);
      assert chunks[..i + 1] == chunks[..i] + [chunks[i]];
      bytes := bytes + chunks[i];
      i := i + 1;
    }
    assert chunks[..|chunks|] == chunks;
  }

  /** A fresh copy of the stored bytes each time it is opened. */
  function GetInputStream(ds: DataSource): (r: seq<byte>)
    ensures |r| == |ds.bytes| && forall i :: 0 <= i < |r| ==> r[i] == ds.bytes[i]
  {
    ds.bytes
  }

  /** The data source is read-only: opening it for writing always throws. */
  function GetOutputStream(ds: DataSource): (r: Result<seq<byte>, ComposeError>)
    ensures r == Failure(IoError)
  {
    Failure(IoError)
  }

  /** The body part for one message part. A template takes precedence over
      text, and text over data; data of an unknown class leaves the part empty. */
  function PartBody(part: MimePart, render: (string, PartData) -> Rendering, encode: string -> seq<byte>)
    : (r: Result<BodyPart, ComposeError>)
  {
    if part.template.Some? then
      match render(part.template.value, part.data)
      case Rendered(out) => Success(RenderedPart(out, part.mimeType))
      case TemplateMissing => Failure(IoError)
      case TemplateFailed => Failure(TemplateError)
    else if part.text.Some? then Success(TextPart(part.text.value))
    else
      match part.data
      case StreamData(chunks) => Success(SourcePart(DataSource(part.name, part.mimeType, Flatten(chunks))))
      case HandlerData(h) => Success(HandlerPart(h))
      case StringData(s) => Success(SourcePart(DataSource(part.name, part.mimeType, encode(s))))
      case NoData => Success(EmptyPart)
      case OtherData => Success(EmptyPart)
  }

  /** Precedence of the three ways a part can be given, and what each carries. */
  lemma PartBodyPrecedence(part: MimePart, render: (string, PartData) -> Rendering, encode: string -> seq<byte>)
    ensures PartBody(part, render, encode).Failure? ==> part.template.Some?
    ensures part.template.Some? ==>
      (PartBody(part, render, encode).Success? <==> render(part.template.value, part.data).Rendered?)
    ensures part.template.None? && part.text.Some? ==>
      PartBody(part, render, encode) == Success(TextPart(part.text.value))
    ensures part.template.None? && part.text.None? ==>
      var b := PartBody(part, render, encode);
      && b.Success?
      && (b.value.SourcePart? <==> part.data.StreamData? || part.data.StringData?)
      && (b.value.EmptyPart? <==> part.data.NoData? || part.data.OtherData?)
      && (b.value.SourcePart? ==> b.value.source.name == part.name && b.value.source.contentType == part.mimeType)
      && (part.data.StreamData? ==> b.value.source.bytes == Flatten(part.data.chunks))
  {
  }

  /** `createMultipart`: one body part per message part, in order; the first
      part whose rendering throws makes the whole call throw. */
  function CreateMultipart(parts: seq<MimePart>, render: (string, PartData) -> Rendering, encode: string -> seq<byte>)
    : (r: Result<seq<BodyPart>, ComposeError>)
    ensures r.Success? <==> forall i :: 0 <= i < |parts| ==> PartBody(parts[i], render, encode).Success?
    ensures r.Success? ==>
      && |r.value| == |parts|
      && forall i :: 0 <= i < |parts| ==> r.value[i] == PartBody(parts[i], render, encode).value
    ensures r.Failure? ==>
      exists i ::
        && 0 <= i < |parts|
        && PartBody(parts[i], render, encode) == Failure(r.error)
        && forall j :: 0 <= j < i ==> PartBody(parts[j], render, encode).Success?
    decreases |parts|
  {
    if |parts| == 0 then Success([])
    else
      match PartBody(parts[0], render, encode)
      case Failure(e) => Failure(e)
      case Success(b) =>
        match CreateMultipart(parts[1..], render, encode)
        case Failure(e) =>
          assert forall i :: 1 <= i < |parts| ==> parts[1..][i - 1] == parts[i];
          Failure(e)
        case Success(bs) =>
          assert forall i :: 1 <= i < |parts| ==> parts[1..][i - 1] == parts[i];
          Success([b] + bs)
  }

  // ---------------------------------------------------------------------
  // Recipients
  // ---------------------------------------------------------------------

  /** Address parsing (`InternetAddress.parse`): the addresses of one
      entry, or None when the entry is malformed and an `AddressException`
      is thrown. */
  type AddressParser = string -> Option<seq<string>>

  /** Every entry of the list parses. */
  predicate Parses(list: seq<string>, parse: AddressParser)
  {
    forall i :: 0 <= i < |list| ==> parse(list[i]).Some?
  }

  /** The header after the loop over `to` (`cc`, `bcc`) ran from `header`
      on: each `setRecipients` call replaces the header with the addresses
      of one entry, so only the last entry's addresses remain. The first
      entry that does not parse ends the loop with its exception. */
  function SetRecipientsLoop(list: seq<string>, parse: AddressParser, header: seq<string>): (r: Option<seq<string>>)
    ensures r.Some? <==> Parses(list, parse)
    ensures r.Some? && |list| == 0 ==> r.value == header
    ensures r.Some? && |list| > 0 ==> r.value == parse(list[|list| - 1]).value
    decreases |list|
  {
    if |list| == 0 then Some(header)
    else
      assert forall i :: 1 <= i < |list| ==> list[1..][i - 1] == list[i];
      match parse(list[0])
      case None => None
      case Some(h) => SetRecipientsLoop(list[1..], parse, h)
  }

  /** The header as the source builds it from an initially empty message. */
  function RecipientHeaderAsWritten(list: seq<string>, parse: AddressParser): Option<seq<string>>
  {
    SetRecipientsLoop(list, parse, [])
  }

  /** Every address of every entry, in order. */
  function RecipientHeader(list: seq<string>, parse: AddressParser): (r: Option<seq<string>>)
    ensures r.Some? <==> Parses(list, parse)
    ensures r.Some? ==> forall i, a :: 0 <= i < |list| && a in parse(list[i]).value ==> a in r.value
    ensures r.Some? ==> forall a :: a in r.value ==> exists i :: 0 <= i < |list| && a in parse(list[i]).value
    decreases |list|
  {
    if |list| == 0 then Some([])
    else
      var init := list[..|list| - 1];
      assert forall i :: 0 <= i < |init| ==> init[i] == list[i];
      match RecipientHeader(init, parse)
      case None => None
      case Some(h) =>
        match parse(list[|list| - 1])
        case None => None
        case Some(last) => Some(h + last)
  }

  /** The two agree on a list of at most one entry. */
  lemma HeadersAgreeOnSingleEntry(list: seq<string>, parse: AddressParser)
    requires |list| <= 1
    ensures RecipientHeaderAsWritten(list, parse) == RecipientHeader(list, parse)
  {
    if |list| == 1 {
      assert list[..0] == [];
      assert list[1..] == [];
      assert RecipientHeader(list[..0], parse) == Some([]);
      if parse(list[0]).Some? {
        assert [] + parse(list[0]).value == parse(list[0]).value;
      }
    }
  }

  /** Two recipients in TO: the message as written is addressed to the
      second only. */
  lemma LastRecipientWins()
    ensures var parse := (s: string) => Some([s]);
      var to := ["a@example.org", "b@example.org"];
      && RecipientHeaderAsWritten(to, parse) == Some(["b@example.org"])
      && "a@example.org" !in RecipientHeaderAsWritten(to, parse).value
      && "a@example.org" in RecipientHeader(to, parse).value
  {
    var parse := (s: string) => Some([s]);
    var to := ["a@example.org", "b@example.org"];
    assert "a@example.org" in parse(to[0]).value;
  }

  // ---------------------------------------------------------------------
  // Spooling (`sendEmail`)
  // ---------------------------------------------------------------------

  datatype MailRequest = MailRequest(
    to: seq<string>,
    cc: seq<string>,
    bcc: seq<string>,
    from: string,
    subject: string,
    parts: seq<MimePart>)

  /** The message handed to `writeTo`. */
  datatype Message = Message(
    from: string,
    to: seq<string>,
    cc: seq<string>,
    bcc: seq<string>,
    subject: string,
    body: seq<BodyPart>)

  /** `ComposeFailed` is the exception of composing the body; `AddressInvalid`
      the `AddressException` of a malformed recipient entry; `ItemExists`
      a node already stored under the new name. */
  datatype ServiceError = ComposeFailed(cause: ComposeError) | AddressInvalid | ItemExists

  /** Every recipient entry of the request parses. */
  predicate RequestParses(req: MailRequest, parse: AddressParser)
  {
    Parses(req.to, parse) && Parses(req.cc, parse) && Parses(req.bcc, parse)
  }

  /** The mime type the service writes on every spooled message. */
  const SPOOL_MIME_TYPE: string := "plain/text"
  const FILE_NODE_TYPE: string := "nt:file"

  /** Where a message with the given UUID is stored under the stripped folder. */
  function SpoolPath(folder: string, uuid: string): string
  {
    "/" + folder + "/" + uuid
  }

  /** `sendEmail`: set the recipient headers, compose the body and, unless
      a template error was swallowed, add the message to the spool as an
      `nt:file` node named by a UUID. */
  function SendEmail(
    spool: Spool, folder: string, uuid: string, req: MailRequest,
    render: (string, PartData) -> Rendering, encode: string -> seq<byte>,
    parse: AddressParser, writeTo: Message -> seq<byte>, now: int)
    : (r: Result<Spool, ServiceError>)
    ensures r == Failure(AddressInvalid) <==> !RequestParses(req, parse)
    ensures RequestParses(req, parse) && CreateMultipart(req.parts, render, encode) == Failure(TemplateError) ==>
      r == Success(spool)
    ensures RequestParses(req, parse) && CreateMultipart(req.parts, render, encode) == Failure(IoError) ==>
      r == Failure(ComposeFailed(IoError))
    ensures RequestParses(req, parse) && CreateMultipart(req.parts, render, encode).Success? ==>
      var path := SpoolPath(folder, uuid);
      && (r.Failure? <==> path in spool)
      && (r.Success? ==>
        && path in r.value
        && SameExcept(spool, r.value, path)
        && |r.value| == |spool| + 1
        && r.value[path].primaryType == FILE_NODE_TYPE
        && r.value[path].retryCount.None? && r.value[path].nextTry.None?
        && r.value[path].content.Some?
        && r.value[path].content.value.mimeType == SPOOL_MIME_TYPE
        && r.value[path].content.value.lastModified == now)
  {
    var to := RecipientHeaderAsWritten(req.to, parse);
    var cc := RecipientHeaderAsWritten(req.cc, parse);
    var bcc := RecipientHeaderAsWritten(req.bcc, parse);
    if to.None? || cc.None? || bcc.None? then Failure(AddressInvalid)
    else
      match CreateMultipart(req.parts, render, encode)
      case Failure(TemplateError) => Success(spool)
      case Failure(IoError) => Failure(ComposeFailed(IoError))
      case Success(body) =>
        var msg := Message(req.from, to.value, cc.value, bcc.value, req.subject, body);
        var path := SpoolPath(folder, uuid);
        if path in spool then Failure(ItemExists)
        else
          var entry := Entry(FILE_NODE_TYPE, Some(Resource(SPOOL_MIME_TYPE, writeTo(msg), now)), None, None);
          Success(spool[path := entry])
  }

  /** A mail the service spools carries no retry properties, so it keeps the
      spool's retry data consistent. */
  lemma SendEmailKeepsSpoolConsistent(
    spool: Spool, folder: string, uuid: string, req: MailRequest,
    render: (string, PartData) -> Rendering, encode: string -> seq<byte>,
    parse: AddressParser, writeTo: Message -> seq<byte>, now: int)
    requires SpoolConsistent(spool)
    ensures var r := SendEmail(spool, folder, uuid, req, render, encode, parse, writeTo, now);
      r.Success? ==> SpoolConsistent(r.value)
  {
    var r := SendEmail(spool, folder, uuid, req, render, encode, parse, writeTo, now);
    if r.Success? && r.value != spool {
      var path := SpoolPath(folder, uuid);
      forall q | q in r.value ensures RetryDataConsistent(r.value[q]) {
        if q != path { assert r.value[q] == spool[q]; }
      }
    }
  }

  /** The addresses a header ends up with: none for an empty list, else
      those of the list's last entry only. */
  function LastEntryAddresses(list: seq<string>, parse: AddressParser): seq<string>
    requires Parses(list, parse)
  {
    if |list| == 0 then [] else parse(list[|list| - 1]).value
  }

  /** What the stored bytes are: the serialised message with the request's
      sender, subject and one body part per request part, whose TO, CC and
      BCC headers hold the addresses of the last entry of each list. */
  lemma SpooledMessageContents(
    spool: Spool, folder: string, uuid: string, req: MailRequest,
    render: (string, PartData) -> Rendering, encode: string -> seq<byte>,
    parse: AddressParser, writeTo: Message -> seq<byte>, now: int)
    requires SendEmail(spool, folder, uuid, req, render, encode, parse, writeTo, now).Success?
    requires CreateMultipart(req.parts, render, encode).Success?
    ensures RequestParses(req, parse)
    ensures var s := SendEmail(spool, folder, uuid, req, render, encode, parse, writeTo, now).value;
      var body := CreateMultipart(req.parts, render, encode).value;
      exists m: Message ::
        && s[SpoolPath(folder, uuid)].content.value.data == writeTo(m)
        && m.from == req.from && m.subject == req.subject
        && |m.body| == |req.parts|
        && m.body == body
        && m.to == LastEntryAddresses(req.to, parse)
        && m.cc == LastEntryAddresses(req.cc, parse)
        && m.bcc == LastEntryAddresses(req.bcc, parse)
  {
    var body := CreateMultipart(req.parts, render, encode).value;
    var m := Message(req.from, RecipientHeaderAsWritten(req.to, parse).value, RecipientHeaderAsWritten(req.cc, parse).value,
                     RecipientHeaderAsWritten(req.bcc, parse).value, req.subject, body);
    assert SendEmail(spool, folder, uuid, req, render, encode, parse, writeTo, now).value[SpoolPath(folder, uuid)].content.value.data
      == writeTo(m);
  }
}

=== FILE: spool.dfy ===
/**
  The mail spool as the delivery pipeline sees it: a map from repository path
  to a spooled entry, the jobs that name an entry, and the constants the
  listener, the job processor and the mail service share.
 */
module Spool {
  import opened Common

  /** The `jcr:content` child of a spooled mail: the stored message. */
  datatype Resource = Resource(mimeType: string, data: seq<byte>, lastModified: int)

  /** A spooled mail node. `content` is None when the `jcr:content` child or
      its `jcr:data` property is missing; `retryCount` and `nextTry` are the
      two long properties written after failed attempts. */
  datatype Entry = Entry(
    primaryType: string,
    content: Option<Resource>,
    retryCount: Option<int>,
    nextTry: Option<int>)

  /** The spool: repository path of each entry to the entry. */
  type Spool = map<string, Entry>

  /** The retry properties are written together: an entry that never failed
      (no `retryCount`) has no `nextTry` either. */
  predicate RetryDataConsistent(e: Entry)
  {
    e.retryCount.None? ==> e.nextTry.None?
  }

  /** Every entry of the spool keeps its retry properties consistent. */
  predicate SpoolConsistent(s: Spool)
  {
    forall p :: p in s ==> RetryDataConsistent(s[p])
  }

  /** An OSGi job event: its topic and the properties the pipeline sets.
      `nodeType` and `propertyName` stand for the `email.nodeType` and
      `email.propertyName` properties. */
  datatype Job = Job(
    topic: string,
    resourcePath: Option<string>,
    nodeType: Option<string>,
    propertyName: Option<string>)

  const EMAIL_SEND_TOPIC: string := "org/liveSense/email/send"
  const EMAIL_REMOVE_TOPIC: string := "org/liveSense/email/remove"

  /** The node type the listener and the job processor expect by default. */
  const NODE_TYPE_EMAIL: string := "email:email"
  /** The property name the listener puts into send jobs by default. */
  const PROPERTY_NAME: string := "jcr:content"
  /** The spool folder every component defaults to. */
  const DEFAULT_SPOOL_FOLDER: string := "/var/spool/queue/mail/"

  /** Nothing but the entry at `path` differs between the two spools. */
  predicate SameExcept(s: Spool, s': Spool, path: string)
  {
    && (forall q :: q in s && q != path ==> q in s' && s'[q] == s[q])
    && (forall q :: q in s' && q != path ==> q in s)
  }

  /** The spool after the repository removed the entry at `path`. */
  function Remove(s: Spool, path: string): (s': Spool)
    ensures path !in s'
    ensures SameExcept(s, s', path)
    ensures |s'| <= |s|
  {
    s - {path}
  }
}

=== FILE: stream_data.dfy ===
/**
  `StreamDataSource`: a read-only data source that copies an input stream
  into memory and derives a MIME content type carrying the file name.

  An input stream is the sequence of chunks its successive `read(b)` calls
  deliver (each between 1 and the buffer size), after which every read
  returns -1. Decoding and re-encoding through ISO-8859-1 maps every byte to
  itself and is not modelled.
 */
module StreamData {
  import opened Common

  /** The size of the read buffer. */
  const BUFFER: nat := 100000

  /** The chunks a stream can deliver, one per read into the buffer. */
  predicate ValidReads(chunks: seq<seq<byte>>)
  {
    forall i :: 0 <= i < |chunks| ==> 1 <= |chunks[i]| <= BUFFER
  }

  predicate Full(chunk: seq<byte>)
  {
    |chunk| == BUFFER
  }

  /** The exceptions of the data source: `StringIndexOutOfBoundsException`
      from `substring(0, -1)`, and the `IOException` of a write attempt. */
  datatype StreamError = IndexOutOfBounds | ReadOnly

  /** The constructor's loop as written: keep reading while the buffer comes
      back full, then append the first `a` bytes of the last read. A final
      read of -1 makes `substring(0, -1)` throw; a short read ends the copy. */
  function AccumulateAsWritten(chunks: seq<seq<byte>>): (r: Result<seq<byte>, StreamError>)
    requires ValidReads(chunks)
    ensures r.Success? <==> exists i :: 0 <= i < |chunks| && !Full(chunks[i])
    decreases |chunks|
  {
    if |chunks| == 0 then Failure(IndexOutOfBounds)
    else if !Full(chunks[0]) then Success(chunks[0])
    else
      match AccumulateAsWritten(chunks[1..])
      case Success(rest) =>
        assert forall i :: 1 <= i < |chunks| ==> chunks[1..][i - 1] == chunks[i];
        Success(chunks[0] + rest)
      case Failure(e) =>
        assert forall i :: 1 <= i < |chunks| ==> chunks[1..][i - 1] == chunks[i];
        Failure(e)
  }

  /** What the copy keeps: all full chunks up to and including the first
      short one; everything the stream delivers after it is lost. */
  lemma {:induction false} AccumulateKeepsPrefix(chunks: seq<seq<byte>>, k: nat)
    requires ValidReads(chunks)
    requires k < |chunks| && !Full(chunks[k])
    requires forall i :: 0 <= i < k ==> Full(chunks[i])
    ensures AccumulateAsWritten(chunks) == Success(Flatten(chunks[..k + 1]))
    decreases k
  {
    if k == 0 {
      assert chunks[..1] == [chunks[0]];
      assert [chunks[0]][..0] == [];
      assert Flatten([chunks[0]]) == chunks[0];
    } else {
      assert forall i :: 1 <= i < |chunks| ==> chunks[1..][i - 1] == chunks[i];
      AccumulateKeepsPrefix(chunks[1..], k - 1);
      assert chunks[..k + 1] == [chunks[0]] + chunks[1..][..k];
      FlattenCons(chunks[0], chunks[1..][..k]);
    }
  }

  /** Reading until the stream reports its end, as intended: every byte,
      in order. */
  method ReadFully(chunks: seq<seq<byte>>) returns (r: Result<seq<byte>, StreamError>)
    requires ValidReads(chunks)
    ensures r == Success(Flatten(chunks))
  {
    var acc: seq<byte> := [];
    var i := 0;
    while i < |chunks|
      invariant 0 <= i <= |chunks|
      invariant acc == Flatten(chunks[..i])
    {
      FlattenAppend(chunks[..i], chunks[i]);
      assert chunks[..i + 1] == chunks[..i] + [chunks[i]];
      acc := acc + chunks[i];
      i := i + 1;
    }
    assert chunks[..|chunks|] == chunks;
    r := Success(acc);
  }

  /** An empty stream makes the constructor throw. */
  lemma EmptyStreamThrows()
    ensures AccumulateAsWritten([]) == Failure(IndexOutOfBounds)
  {
  }

  /** A stream whose length is a positive multiple of the buffer size, read
      in full buffers, makes the constructor throw, where reading until the
      end gives all its bytes. */
  lemma ExactMultipleThrows(chunks: seq<seq<byte>>)
    requires ValidReads(chunks)
    requires forall i :: 0 <= i < |chunks| ==> Full(chunks[i])
    ensures AccumulateAsWritten(chunks).Failure?
    ensures |Flatten(chunks)| == |chunks| * BUFFER
  {
    FlattenLength(chunks, BUFFER);
  }

  /** A short read before the end loses the rest of the stream: one byte,
      then one more. */
  lemma ShortReadTruncates()
    ensures AccumulateAsWritten([[7 as byte], [8 as byte]]) == Success([7 as byte])
    ensures Flatten([[7 as byte], [8 as byte]]) == [7 as byte, 8 as byte]
  {
    var chunks: seq<seq<byte>> := [[7 as byte], [8 as byte]];
    assert Flatten(chunks[..1]) == [7 as byte];
    assert chunks[..1] == [[7 as byte]];
  }

  /** On a stream that fills every buffer but the last, and whose last read
      is short, the copy as written keeps every byte. */
  lemma AgreesOnFilledBuffers(chunks: seq<seq<byte>>)
    requires ValidReads(chunks) && |chunks| >= 1
    requires forall i :: 0 <= i < |chunks| - 1 ==> Full(chunks[i])
    requires !Full(chunks[|chunks| - 1])
    ensures AccumulateAsWritten(chunks) == Success(Flatten(chunks))
  {
    var k := |chunks| - 1;
    assert forall i :: 0 <= i < k ==> Full(chunks[i]);
    AccumulateKeepsPrefix(chunks, k);
    assert chunks[..k + 1] == chunks;
  }

  // ---------------------------------------------------------------------
  // The data source
  // ---------------------------------------------------------------------

  const OCTET_STREAM: string := "application/octet-stream"

  /** The suffix that names the file; a missing name prints as `null`. */
  function NameSuffix(fileName0: Option<string>): string
  {
    "; name=\"" + fileName0.GetOr("null") + "\""
  }

  /** The type before the suffix: a given type, else the type looked up for
      the file name's extension, and octet-stream when that is still missing
      or empty. */
  function BaseType(fileName0: Option<string>, contentType: Option<string>, lookup: string -> string): (t: string)
    ensures t != ""
    ensures contentType.Some? && contentType.value != "" ==> t == contentType.value
    ensures contentType.None? && fileName0.Some? && lookup(fileName0.value) != "" ==> t == lookup(fileName0.value)
    ensures t == OCTET_STREAM || t == contentType.GetOr("") || (fileName0.Some? && t == lookup(fileName0.value))
  {
    var ct := if contentType.None? && fileName0.Some? then Some(lookup(fileName0.value)) else contentType;
    if ct.None? || ct.value == "" then OCTET_STREAM else ct.value
  }

  /** A given type is never replaced by the lookup, even when the lookup
      knows the extension; with neither a type nor a file name the type is
      octet-stream named `null`. */
  lemma ContentTypeChoice(fileName0: Option<string>, contentType: Option<string>, lookup: string -> string)
    ensures contentType == Some("") ==> BaseType(fileName0, contentType, lookup) == OCTET_STREAM
    ensures fileName0.None? && contentType.None? ==>
      BaseType(fileName0, contentType, lookup) + NameSuffix(fileName0) == OCTET_STREAM + "; name=\"null\""
  {
  }

  /** The data source: its content type (null after `setContentType(null)`),
      its name, and the bytes copied from the stream. */
  datatype StreamDataSource = StreamDataSource(contentType: Option<string>, fileName: string, att: seq<byte>)

  /** The constructor. */
  function NewStreamDataSource(chunks: seq<seq<byte>>, fileName0: Option<string>, contentType: Option<string>, lookup: string -> string)
    : (r: Result<StreamDataSource, StreamError>)
    requires ValidReads(chunks)
    ensures r.Failure? <==> AccumulateAsWritten(chunks).Failure?
    ensures r.Success? ==>
      && r.value.att == AccumulateAsWritten(chunks).value
      && r.value.contentType == Some(BaseType(fileName0, contentType, lookup) + NameSuffix(fileName0))
      && (fileName0.None? ==> r.value.fileName == "")
      && (fileName0.Some? ==> r.value.fileName == fileName0.value)
  {
    match AccumulateAsWritten(chunks)
    case Failure(e) => Failure(e)
    case Success(bytes) =>
      Success(StreamDataSource(Some(BaseType(fileName0, contentType, lookup) + NameSuffix(fileName0)),
                               fileName0.GetOr(""), bytes))
  }

  /** `setContentType` replaces the content type verbatim and nothing else. */
  function SetContentType(ds: StreamDataSource, contType0: Option<string>): (r: StreamDataSource)
    ensures r.contentType == contType0
    ensures r.fileName == ds.fileName && r.att == ds.att
  {
    ds.(contentType := contType0)
  }

  /** `getInputStream` gives the stored bytes, the same on every call. */
  function GetInputStream(ds: StreamDataSource): (r: seq<byte>)
    ensures |r| == |ds.att| && forall i :: 0 <= i < |r| ==> r[i] == ds.att[i]
  {
    ds.att
  }

  /** `getOutputStream` always throws. */
  function GetOutputStream(ds: StreamDataSource): (r: Result<seq<byte>, StreamError>)
    ensures r == Failure(ReadOnly)
  {
    Failure(ReadOnly)
  }

  /** A data source built from a stream that ends with a short read gives
      back exactly the stream's bytes. */
  lemma StreamRoundTrip(chunks: seq<seq<byte>>, fileName0: Option<string>, contentType: Option<string>, lookup: string -> string)
    requires ValidReads(chunks) && |chunks| >= 1
    requires forall i :: 0 <= i < |chunks| - 1 ==> Full(chunks[i])
    requires !Full(chunks[|chunks| - 1])
    ensures NewStreamDataSource(chunks, fileName0, contentType, lookup).Success?
    ensures GetInputStream(NewStreamDataSource(chunks, fileName0, contentType, lookup).value) == Flatten(chunks)
  {
    AgreesOnFilledBuffers(chunks);
  }
}

=== FILE: template_loader.dfy ===
/**
  The FreeMarker template loader backed by the repository
  (`EmailTemplateLoader`): a template is a node whose `jcr:content` child
  carries `jcr:lastModified` and `jcr:data`, and a template source is the
  pair (name, last-modified time) the loader hands back to FreeMarker.
 */
module TemplateLoader {
  import opened Common
  import JavaStrings

  /** A template's `jcr:content` child. `lastModified` is None when the
      property is missing or is not a date; `data` is None when the binary
      is missing. */
  datatype TemplateContent = TemplateContent(lastModified: Option<int>, data: Option<seq<byte>>)

  datatype TemplateNode = TemplateNode(content: Option<TemplateContent>)

  /** The nodes reachable by relative path from the root, and whether the
      repository currently refuses to give out a session. */
  datatype TemplateRepo = TemplateRepo(nodes: map<string, TemplateNode>, unavailable: bool)

  /** A template source: the name it was found under and its time stamp. */
  datatype TemplateSource = TemplateSource(name: string, lastModified: int)

  /** `UnsupportedEncoding` is the `IOException` subclass an unknown
      charset name raises. */
  datatype LoaderError = IllegalArgument | IoError | UnsupportedEncoding

  /** The constructor's checks: a null name or a time stamp below -1 is
      rejected. */
  function NewTemplateSource(name: Option<string>, lastModified: int): (r: Result<TemplateSource, LoaderError>)
    ensures r.Success? <==> name.Some? && lastModified >= -1
    ensures r.Success? ==> r.value.name == name.value && r.value.lastModified == lastModified
    ensures r.Failure? ==> r.error == IllegalArgument
  {
    if name.None? then Failure(IllegalArgument)
    else if lastModified < -1 then Failure(IllegalArgument)
    else Success(TemplateSource(name.value, lastModified))
  }

  /** What FreeMarker passes back as `Object templateSource`. */
  datatype SourceArg = NullArg | SourceOf(source: TemplateSource) | ForeignArg

  /** `equals`: two sources are equal exactly when their names are. */
  predicate SourceEquals(a: TemplateSource, obj: SourceArg)
  {
    obj.SourceOf? && a.name == obj.source.name
  }

  /** `hashCode`: the name's hash. */
  function SourceHash(a: TemplateSource): int
  {
    JavaStrings.JavaHash(a.name)
  }

  /** Equality ignores the time stamp, is an equivalence on sources, and
      agrees with the hash, so a refreshed source replaces the old one in a
      hash-based cache. */
  lemma EqualsContract(a: TemplateSource, b: TemplateSource, c: TemplateSource)
    ensures SourceEquals(a, SourceOf(a))
    ensures SourceEquals(a, SourceOf(b)) <==> SourceEquals(b, SourceOf(a))
    ensures SourceEquals(a, SourceOf(b)) && SourceEquals(b, SourceOf(c)) ==> SourceEquals(a, SourceOf(c))
    ensures SourceEquals(a, SourceOf(b)) ==> SourceHash(a) == SourceHash(b)
    ensures SourceEquals(a, SourceOf(a.(lastModified := b.lastModified)))
    ensures !SourceEquals(a, NullArg) && !SourceEquals(a, ForeignArg)
  {
  }

  /** `getNodeByName`: the node, or null when it is missing or the
      repository fails. */
  function NodeByName(repo: TemplateRepo, name: string): (r: Option<TemplateNode>)
    ensures r.Some? <==> !repo.unavailable && name in repo.nodes
    ensures r.Some? ==> r.value == repo.nodes[name]
  {
    if repo.unavailable || name !in repo.nodes then None else Some(repo.nodes[name])
  }

  /** The node's time stamp, if it has one. */
  function StampOf(n: TemplateNode): Option<int>
  {
    if n.content.None? then None else n.content.value.lastModified
  }

  /** The result of `findTemplateSource`: a source, null, or the
      `IllegalArgumentException` that escapes for a stamp below -1. */
  datatype Found = FoundSource(source: TemplateSource) | NotFound | Thrown(error: LoaderError)

  function FindTemplateSource(repo: TemplateRepo, name: Option<string>): (r: Found)
    ensures name.None? ==> r == NotFound
    ensures r.FoundSource? <==>
      (name.Some? && NodeByName(repo, name.value).Some?
       && StampOf(NodeByName(repo, name.value).value).Some?
       && StampOf(NodeByName(repo, name.value).value).value >= -1)
    ensures r.FoundSource? ==>
      r.source == TemplateSource(name.value, StampOf(NodeByName(repo, name.value).value).value)
    ensures r.Thrown? ==> r.error == IllegalArgument
  {
    if name.None? then NotFound
    else match NodeByName(repo, name.value)
      case None => NotFound
      case Some(n) =>
        match StampOf(n)
        case None => NotFound
        case Some(t) =>
          match NewTemplateSource(name, t)
          case Success(src) => FoundSource(src)
          case Failure(e) => Thrown(e)
  }

  /** `getLastModified`: the node's current stamp, or -1 when there is no
      source, no node or no stamp. */
  function GetLastModified(repo: TemplateRepo, obj: SourceArg): (t: int)
    ensures !obj.SourceOf? ==> t == -1
    ensures obj.SourceOf? && NodeByName(repo, obj.source.name).None? ==> t == -1
    ensures obj.SourceOf? && NodeByName(repo, obj.source.name).Some? ==>
      t == StampOf(NodeByName(repo, obj.source.name).value).GetOr(-1)
  {
    if !obj.SourceOf? then -1
    else match NodeByName(repo, obj.source.name)
      case None => -1
      case Some(n) => StampOf(n).GetOr(-1)
  }

  /** The template's stored bytes, when the source names a node that has them. */
  predicate Readable(repo: TemplateRepo, obj: SourceArg)
  {
    && obj.SourceOf? && NodeByName(repo, obj.source.name).Some?
    && NodeByName(repo, obj.source.name).value.content.Some?
    && NodeByName(repo, obj.source.name).value.content.value.data.Some?
  }

  /** `getReader`: a reader over the template's bytes in the given encoding
      (`charsets` are the encodings the platform supports). Every failure
      is an `IOException`; the stream is opened before the encoding is
      looked up. */
  function GetReader(repo: TemplateRepo, obj: SourceArg, encoding: string, charsets: set<string>)
    : (r: Result<seq<byte>, LoaderError>)
    ensures r.Failure? ==> r.error == IoError || r.error == UnsupportedEncoding
    ensures r.Success? <==> Readable(repo, obj) && encoding in charsets
    ensures r == Failure(UnsupportedEncoding) <==> Readable(repo, obj) && encoding !in charsets
    ensures r.Success? ==> r.value == repo.nodes[obj.source.name].content.value.data.value
  {
    if !obj.SourceOf? then Failure(IoError)
    else match NodeByName(repo, obj.source.name)
      case None => Failure(IoError)
      case Some(n) =>
        if n.content.None? || n.content.value.data.None? then Failure(IoError)
        else if encoding !in charsets then Failure(UnsupportedEncoding)
        else Success(n.content.value.data.value)
  }

  /** A source just found reports the stamp it was found with, as long as the
      repository has not changed; a template whose content has data can then
      be read in any supported encoding. */
  lemma FoundSourceIsFresh(repo: TemplateRepo, name: string, encoding: string, charsets: set<string>)
    requires FindTemplateSource(repo, Some(name)).FoundSource?
    ensures var src := FindTemplateSource(repo, Some(name)).source;
      && GetLastModified(repo, SourceOf(src)) == src.lastModified
      && src.name == name
      && (GetReader(repo, SourceOf(src), encoding, charsets).Success? <==>
            repo.nodes[name].content.value.data.Some? && encoding in charsets)
  {
  }

  /** Once the template changes under the same name, the stored source no
      longer matches the repository's stamp, which is how FreeMarker notices
      it must reload. */
  lemma ChangedTemplateDetected(repo: TemplateRepo, name: string, repo': TemplateRepo)
    requires FindTemplateSource(repo, Some(name)).FoundSource?
    requires !repo'.unavailable && name in repo'.nodes
    requires StampOf(repo'.nodes[name]) != StampOf(repo.nodes[name])
    requires StampOf(repo'.nodes[name]).Some? && StampOf(repo'.nodes[name]).value >= -1
    ensures var src := FindTemplateSource(repo, Some(name)).source;
      GetLastModified(repo', SourceOf(src)) != src.lastModified
  {
  }
}
